=== FILE: README.md ===
# EchoMind core logic in Dafny

EchoMind is a mental-health companion. A FastAPI backend answers chat
messages through an LLM agent and stores every exchange in a SQLite table.
It scores text sentiment with VADER and detects facial emotion in images and
video frames. A Streamlit front end shows the history, with search, filters,
paging and progress indicators. This project models the deterministic logic
inside four files of that system and proves what it guarantees:

- `backend/sentiment_analysis.py` (`sentiment.dfy`, module `Sentiment`):
  - the neutral default for blank text and for analyzer failures;
  - the ±0.05 labelling thresholds;
  - the conversation length.
- `backend/facial_emotion.py` (`facial_emotion.dfy`, module `FacialEmotion`):
  - choosing the largest face, first among equal areas;
  - padding it by a fifth of its longer side and clamping it to the image;
  - cropping with numpy slice semantics;
  - renaming and stably ranking the classifier's predictions;
  - the error path of each stage;
  - seeking the middle frame of a video through a capture object.
- `backend/main.py`:
  - `chat_store.dfy` (module `ChatStore`) holds the store as a class over a
    sequence of records. `/ask` appends exactly one normalised record,
    `/chats` lists newest first with offset and limit, and `/chats/count`
    gives the size.
  - `summary.dfy` (module `Summary`) holds the `/summarize` prompt builder.
    It takes the first 20 chats, one text block per chat, and truncates to
    8000 characters plus a marker. The fixed prompt goes around that text.
    The reply is chosen from the agent's outcome.
- `pages/4_History.py` (`history_view.dfy`, module `HistoryView`):
  - the case-insensitive search;
  - the sentiment badge;
  - the sidebar filters and sort key turned into query parameters;
  - the export parameters;
  - the pager as a session-state class;
  - the 7/14-day progress indicator and the trend metric;
  - the request behind the summary button.

Shared vocabulary lives in three modules:

- `base.dfy` (`Base`): `Option`, `Result`, an order-preserving filter
  `Keep`, SQL `OFFSET`/`LIMIT` as `Window`, and `Sum`.
- `stable_order.dfy` (`StableOrder`): a reference stable descending sort
  `SortDesc`, with its properties and an in-place array insertion sort
  proved equal to it.
- `strings.dfy` (`Strings`): Python's `isspace`, ASCII `lower`, substring
  search, `str(n)` and the `"Z"` replacement.

External components are parameters of the model. These are the VADER
analyzer, the face detector, the emotion classifier, image decoding, JPEG
encoding, the video capture, the clock, the timestamp formatter and the LLM
agent. Python floats are Dafny `real`s.

## Model

| member | source | states |
|---|---|---|
| Sentiment.AnalyzeSentiment | backend/sentiment_analysis.py:29-49 | blank text (empty or only Python whitespace) gives exactly {0.0, 0.0, 1.0, 0.0}; otherwise a working analyzer's scores are returned unchanged; any other result is the neutral record, so the function is total |
| Sentiment.BlankIgnoresAnalyzer | backend/sentiment_analysis.py:40-41 | for blank text the result does not depend on the analyzer at all |
| Sentiment.FailureIsNeutral | backend/sentiment_analysis.py:43-49 | a missing library or a raising analyzer yields the same neutral record as blank text |
| Sentiment.GetSentimentLabel | backend/sentiment_analysis.py:52-67 | Positive iff compound ≥ 0.05, Negative iff ≤ -0.05, Neutral iff strictly between; the boundaries are Positive and Negative |
| Sentiment.LabelMonotone | backend/sentiment_analysis.py:62-67 | a ≤ b implies label(a) ≤ label(b) in the order Negative < Neutral < Positive |
| Sentiment.NeutralDefaultLabel | backend/sentiment_analysis.py:40-67 | the neutral default, which blank text, a missing analyzer and a raising analyzer all produce, labels as Neutral |
| Sentiment.ConversationLength | backend/sentiment_analysis.py:70-81 | the length of user text plus reply, a missing part counting 0; at least each part's length |
| Strings.IsPythonSpace | backend/sentiment_analysis.py:40 | in ASCII exactly the space, tab, newline, vertical tab, form feed, carriage return and the separators 0x1c-0x1f are whitespace; letters and digits never are; the no-break and ideographic spaces are |
| Strings.IsBlank | backend/sentiment_analysis.py:40 | text is blank exactly when removing its whitespace leaves nothing; the empty text is blank |
| FacialEmotion.LargestIndex | backend/facial_emotion.py:110 | the index Python's `max` by area returns: no box has a larger area, and every earlier box has a strictly smaller one |
| FacialEmotion.SelectFace | backend/facial_emotion.py:105-127 | none exactly when nothing was detected; otherwise a detected box of maximal area that is the first such box |
| FacialEmotion.Padding | backend/facial_emotion.py:130 | the padding p satisfies 5p ≤ max(w,h) < 5p+5, i.e. the floor of a fifth of the longer side |
| FacialEmotion.PadAndClamp | backend/facial_emotion.py:129-134 | the origin is non-negative and not right of/below the box; the region's far edges stay within the image; its size is at most the box plus twice the padding; the size is non-negative exactly when the padded box starts inside the image; clamping the left/top edge does not shrink the extent; a box inside the image lies inside its region |
| FacialEmotion.SliceBound | backend/facial_emotion.py:137 | a Python slice bound is normalised into [0, len] and in-range bounds are kept |
| FacialEmotion.PySlice | backend/facial_emotion.py:137 | `s[start:stop]` equals the Dafny slice whenever 0 ≤ start ≤ stop ≤ len; it is empty when the non-negative start is at or past the end or the non-negative stop is not after it; it is never longer than `s` and holds only elements of `s` |
| FacialEmotion.Crop | backend/facial_emotion.py:137 | the crop never has more rows than the image; a region starting at or below the bottom edge, or with no height, crops to nothing; one starting at or right of the right edge, or with no width, crops every row to nothing |
| FacialEmotion.DetectAndCropFace | backend/facial_emotion.py:91-139 | the crop is None exactly when no face was detected |
| FacialEmotion.CropWindow | backend/facial_emotion.py:137 | slicing an in-bounds region out of a rectangular image gives exactly the region's rows and columns, pixel for pixel |
| FacialEmotion.CropContainsFace | backend/facial_emotion.py:129-139 | the crop has the clamped region's height and width, shows the image's pixels shifted by the region's origin, and contains every pixel of a selected box that lies in the image |
| FacialEmotion.CropBeyondEdgeIsEmpty | backend/facial_emotion.py:129-137 | a face box that starts more than its padding below the bottom edge gives an empty crop; one that starts more than its padding right of the right edge gives empty rows |
| FacialEmotion.Rename | backend/facial_emotion.py:188-191 | same length, and entry i carries prediction i's label as `emotion` and its score |
| FacialEmotion.RankEmotions | backend/facial_emotion.py:187-196 | the returned list is sorted by descending score, keeps the classifier order among equal scores, is a permutation of the renamed predictions, equals the reference stable sort, and starts with a top score |
| FacialEmotion.AnalyzeEmotionFromImageBytes | backend/facial_emotion.py:142-199 | missing OpenCV is an ImportError; decode, detect and classify failures are ValueErrors with their own prefixes; no face gives the empty list; success is the stably ranked renamed predictions of the chosen crop, never a partial result |
| FacialEmotion.MiddleFrame | backend/facial_emotion.py:231-238 | an error exactly when the frame count is 0; otherwise k with 2k ≤ N < 2k+2, and 0 ≤ k < N for positive N |
| FacialEmotion.VideoCapture.constructor | backend/facial_emotion.py:226 | a new capture is at frame 0 and not released |
| FacialEmotion.VideoCapture.Seek | backend/facial_emotion.py:239 | the cursor moves to the requested frame |
| FacialEmotion.VideoCapture.Read | backend/facial_emotion.py:241 | the frame under the cursor, which then advances by one; nothing (and no move) outside the decodable frames |
| FacialEmotion.VideoCapture.Release | backend/facial_emotion.py:242 | the capture is released and the cursor is unchanged |
| FacialEmotion.ExtractFrameFromVideo | backend/facial_emotion.py:202-266 | a missing OpenCV raises the ImportError "OpenCV (cv2) is required for video processing. …" unwrapped, before the capture is touched; the other failures (not opened, zero frames, unreadable frame) each give their own error wrapped in "Failed to extract frame from video: "; otherwise frame N div 2 is encoded; the capture is released on every path that reaches the read, and is neither released nor moved on the paths that fail before it |
| StableOrder.Insert | backend/facial_emotion.py:194 | inserting adds exactly the one element: the length grows by one and the result is a permutation of the element and the list; it starts with the element or with the list's first element |
| StableOrder.SortDesc | backend/facial_emotion.py:194 | the reference sort keeps the length and is a permutation of its input |
| StableOrder.SortDescSpec | backend/facial_emotion.py:194 | the reference sort is sorted by descending key, has the input's length and keeps the input order among equal keys |
| StableOrder.SameTiesPermutation | backend/facial_emotion.py:194 | keeping every tie class in order implies being a permutation |
| StableOrder.SortedTiesUnique | backend/facial_emotion.py:194 | two descending arrangements with the same tie classes are equal, so a stable sort's result is unique |
| StableOrder.IsSortDesc | backend/facial_emotion.py:194 | any sorted arrangement that keeps the ties is the reference sort and a permutation of the input |
| StableOrder.SortDescInPlace | backend/facial_emotion.py:194 | sorting the array in place leaves it sorted by descending key, stable, a permutation of the old contents and equal to the reference sort |
| StableOrder.MoveIntoPlace | backend/facial_emotion.py:194 | one insertion pass extends the sorted prefix by one element, keeps the ties in order and leaves the rest of the array untouched |
| Base.KeepSpec | pages/4_History.py:239-243 | a comprehension filter keeps exactly the satisfying elements, each as often as in the input, as a subsequence |
| Base.OffsetStart | backend/main.py:73 | SQLite's offset: negative offsets read as 0, offsets past the end as the end |
| Base.Window | backend/main.py:73 | `OFFSET/LIMIT`: the result has min(limit, remaining) rows (all remaining for a negative limit), and row k is input row start+k |
| Base.WindowAdjacent | pages/4_History.py:221-223 | two adjacent windows concatenated are the window spanning both |
| Strings.Lower | pages/4_History.py:238-242 | lowering keeps the length and lowers each character |
| Strings.Contains | pages/4_History.py:241-242 | `needle in hay` is true exactly when the needle occurs at some position |
| Strings.NatToString | backend/main.py:124 | `str(n)` is non-empty, all digits, has no leading zero unless n = 0, and reads back as n |
| Strings.ReplaceZ | backend/main.py:117 | no "Z" remains; text without "Z" is unchanged; the result is exactly five characters longer per "Z" |
| Strings.ReplaceZConcat | backend/main.py:117 | the replacement works piece by piece: replacing in `a + b` is replacing in `a` followed by replacing in `b` |
| Strings.ReplaceZSingle | backend/main.py:117 | a lone "Z" becomes "+00:00" and any other lone character stays |
| ChatStore.NewRecord | backend/main.py:41-46 | the record keeps the query and the clock's time; the reply is "" exactly when the agent gave none or an empty one; the tool is null exactly when the parser said "None" or nothing |
| ChatStore.Store.constructor | backend/main.py:15-17 | a fresh database: the table starts empty and the first id is 1 |
| ChatStore.Store.Ask | backend/main.py:33-53 | exactly one record, with the next id, is appended, the next id advances by one, and nothing else changes; the count grows by one; ids stay strictly increasing; the raw reply and tool are returned |
| ChatStore.Store.GetChats | backend/main.py:56-74 | the listing is exactly the OFFSET skip / LIMIT limit window of the store sorted newest first; so it is newest first, holds only stored records, has min(limit, remaining after skip) entries, and without skip and limit is a permutation of the store |
| ChatStore.Store.Count | backend/main.py:77-83 | the count equals the length of an unbounded listing and is 0 exactly when the store is empty |
| ChatStore.NewestListedFirst | backend/main.py:73 | a record stored with a later timestamp than all others is the first and only entry of a one-row listing |
| Summary.FormatTime | backend/main.py:107-122 | a missing, null, empty or unparseable timestamp is "Unknown time"; otherwise the formatter's text for the "Z"-replaced string |
| Summary.ToolLine | backend/main.py:127-128 | the "Tool Used" line is present exactly when the tool is a non-empty string |
| Summary.Block | backend/main.py:124-129 | every chat block begins with "Conversation ", ends with the separator "\n---\n\n", and holds the chat's details in between |
| Summary.BlockDetails | backend/main.py:124-128 | the chat's details open with its 1-based number and " (", then the formatted time, "):", the user's message after "User: " and the reply after "Assistant: ", each on its own line, and close with the tool line, which is empty when no tool was used |
| Summary.Render | backend/main.py:108-126 | a message field renders as its string, an absent field as the default "", and a JSON null as "None", as an f-string does |
| Summary.Rendered | backend/main.py:104-129 | block i is the block of chat i numbered i+1 |
| Summary.FirstChats | backend/main.py:101-102 | at most 20 chats, an input prefix, the whole input when it has at most 20 |
| Summary.BuildConversationText | backend/main.py:99-134 | the loop's text equals the header followed by the blocks of the first 20 chats in input order |
| Summary.ChatAppendsBlock | backend/main.py:104-129 | among the first 20, chat i appends exactly its block, numbered i+1, to the text of the chats before it |
| Summary.ConversationPrefix | backend/main.py:102-129 | the text of the first k chats is a prefix of the text of all of them (input order, no reversal) |
| Summary.OnlyFirstTwenty | backend/main.py:102 | chats after the 20th never reach the conversation text |
| Summary.Truncate | backend/main.py:136-138 | text of at most 8000 characters is unchanged; longer text keeps its first 8000 and gets the marker; the result is at most 8000 plus the marker long |
| Summary.TruncateIdempotent | backend/main.py:137-138 | truncating twice is truncating once |
| Summary.Prompt | backend/main.py:141-153 | the conversation text sits unchanged between the fixed instructions and the closing request, and the prompt is exactly as long as the three parts |
| Summary.SummaryFor | backend/main.py:155-170 | a non-empty reply is the summary; an absent or empty reply gives the retry message; a raising agent gives the error text with its message |
| Summary.Summarize | backend/main.py:90-170 | no chats gives the fixed message without consulting the agent; otherwise the summary is the agent's outcome on the prompt around the truncated conversation text |
| Summary.PromptBounded | backend/main.py:137-153 | the agent's prompt is never longer than the fixed text plus 8000 characters and the marker |
| HistoryView.SearchChats | pages/4_History.py:235-243 | an empty term keeps all chats; otherwise exactly the chats whose lowercased message or reply (missing counting as "") contains the lowercased term, each as often as before, in order |
| HistoryView.SearchIgnoresCase | pages/4_History.py:238-242 | a term and its lowercase form find the same chats |
| HistoryView.SearchIdempotent | pages/4_History.py:239-243 | searching the result again with the same term changes nothing |
| HistoryView.SentimentBadge | pages/4_History.py:258-268 | Positive/green iff the score is present and > 0.05, Negative/red iff < -0.05, Neutral/gray otherwise (missing, 0, or within ±0.05 inclusive) |
| HistoryView.BadgeAgreesWithBackend | pages/4_History.py:259-268 | the badge agrees with the backend label for every score except exactly 0.05 and -0.05 |
| HistoryView.ToolFilter | pages/4_History.py:202-208 | "All" adds no tool key; Chat, Speech Emotion and Facial Emotion map to "none", "speech_emotion", "facial_emotion" |
| HistoryView.SortKey | pages/4_History.py:210-218 | every option maps to its backend key, any unknown option to "newest", and the result is always one of the six keys |
| HistoryView.ExportParams | pages/4_History.py:119-126 | each date parameter is present exactly when that date was picked, with its value |
| HistoryView.BuildFilters | pages/4_History.py:195-218 | the filters hold the same date parameters as the export, a tool key exactly when the type filter gives one, and always the sort key |
| HistoryView.RequestParams | pages/4_History.py:25-30 | the request carries skip, limit and every filter; filter values win; skip and limit are sent as their plain decimal text and read back as the numbers |
| HistoryView.PageState.constructor | pages/4_History.py:16-20 | a new session is on page 0 with 10 items per page |
| HistoryView.PageState.Skip | pages/4_History.py:221-222 | the offset is `PageOffset` of the page number and page size, a whole number of pages: divided by the page size it is the page number, with no remainder |
| HistoryView.PageState.DisplayedPage | pages/4_History.py:330 | the shown page number is page_number + 1 |
| HistoryView.PageState.PreviousDisabled | pages/4_History.py:321 | Previous is disabled exactly on the first page, the one whose offset is 0 |
| HistoryView.PageState.NextDisabled | pages/4_History.py:326 | Next is disabled exactly when fewer chats than a full page came back, so an enabled Next implies a non-empty page on which the pager is drawn |
| HistoryView.PageState.NextEnabledIffFullPage | pages/4_History.py:221-326 | on the page fetched at the current offset, Next is enabled exactly when the listing holds a full page from that offset on |
| HistoryView.PageState.PressPrevious | pages/4_History.py:225-323 | allowed only when the fetch returned a non-empty page (otherwise no pager is drawn) and Previous is enabled (page > 0); the page decreases by exactly one |
| HistoryView.PageState.PressNext | pages/4_History.py:225-328 | allowed only when the pager is drawn and a full page came back; the page increases by exactly one |
| HistoryView.PageState.SelectItemsPerPage | pages/4_History.py:167-172 | picking a page size among 5, 10, 20, 50 keeps the page number |
| HistoryView.WholePages | pages/4_History.py:222 | arithmetic support for `PageState.Skip`: the offset of k pages of size n, divided by n, is k with remainder 0 |
| HistoryView.PagesTile | pages/4_History.py:221-223 | the first k pages shown one after another are exactly the first k·size entries of the listing |
| HistoryView.ShortPageIsLast | pages/4_History.py:326 | when a page comes back short (Next disabled) the following page would be empty |
| HistoryView.FullLastPageDeadEnd | pages/4_History.py:221-328 | when the listing fills its last page exactly, Next is enabled there, the following page is empty, and on it no pager is drawn, so neither button can be pressed |
| HistoryView.ProgressIndicator | pages/4_History.py:504-515 | nothing below two points; 2 to 13 points are always Stable; with 14 or more, Positive Progress iff the first week's sum exceeds the second's by more than 0.7, Attention Needed iff it falls short by more than 0.7 |
| HistoryView.ProgressSwapWeeks | pages/4_History.py:507-515 | swapping the two weeks turns Positive Progress into Attention Needed and back |
| HistoryView.TrendMetric | pages/4_History.py:448 | Improving iff the last point's average is strictly above the first's; ties are Declining |
| HistoryView.TrendReversed | pages/4_History.py:448 | an improving series read backwards declines; a flat series declines both ways |
| HistoryView.SummaryRequest | pages/4_History.py:520-527 | one request entry per chat; the backend renders each message as the chat's message or ""; the timestamp and the tool are forwarded as they are when present and as null when absent, so the tool line is "Tool Used: " and the chat's own tool |

## Left out

- Model loading, foreign libraries and I/O are not modelled. This covers the lazy global detector, classifier and analyzer caches, MTCNN/Haar detection, the Hugging Face classifier, VADER's scoring, image and video decoding, BGR to RGB conversion and JPEG encoding. It also covers the temporary video file and its deletion, HTTP, Streamlit rendering, caching and reruns, and the clock. Each is a parameter or is omitted.
- The LLM agent and its response parser are not part of this model. The agent is a function from the prompt to a reply or an exception message. The system message sent with the summary prompt is not modelled.
- `ChatStore.Store.GetChats` does not model SQL's order for equal timestamps, which is unspecified. The model keeps insertion order among ties.
- `Strings.Lower` lowers ASCII letters only. Python's `str.lower` uses full Unicode case mapping.
- `Summary.FormatTime`: the formatter is opaque. Non-string JSON timestamps (numbers, objects) are not modelled. The backend's message and tool fields are strings, JSON null or absent; other JSON types are not modelled.
- The `/summarize` handler has two exception paths that this model never reaches. One is the per-chat skip (backend/main.py:131-134). The other is the outer "Error processing request" (backend/main.py:172-177). With string, null or absent fields nothing in the loop can raise, so both are left out.
- `HistoryView.SearchChats` treats a JSON null message like a missing one. The page itself would raise on `None.lower()`.
- Real numbers replace IEEE doubles. The ±0.05 and 0.1 comparisons and the division by 7 are exact here; rounding at the boundaries is not modelled.
- `FacialEmotion.Padding` is `max(w, h) div 5`. This equals `int(max(w, h) * 0.2)` for image-sized integers; floating-point error for huge sides is not modelled.
- The detector is one function returning boxes. Whether MTCNN or the Haar cascade produced them is not modelled; both branches apply the same selection rule.
- The analytics the history page requests are not modelled, because no shown backend file implements them: filtered listing, stats, trends, emotions, weekly and monthly reports, warning signs, delete and CSV export. The model covers only the request parameters and the view logic applied to their results. The pager is modelled over an abstract listing with `Base.Window` offsets.
- Chart, heatmap and metric rendering on the history page are not modelled. Neither are the warning list display or the per-chat emotion list.
- backend/audio_emotion.py, backend/database.py beyond its column set, pages/2_History.py and the other UI pages are not part of this model.
- Padding keeps the far edges of the region inside the image. But a detector box that starts more than the padding past the right or bottom edge gets a negative width or height, and its crop is empty (`FacialEmotion.PadAndClamp`, `FacialEmotion.CropBeyondEdgeIsEmpty`).
- `FacialEmotion.ExtractFrameFromVideo` follows the code: the capture is not released on the zero-frame path.
- The comment at backend/main.py:101 speaks of processing the chats in reverse order, most recent first. The code keeps the order the client sent, and so does the model (`Summary.ConversationPrefix`). pages/2_History.py fetches them from `/chats`, which lists newest first. pages/4_History.py fetches them from `/chats/filtered`, whose order no backend file in this model defines.
- `ChatStore.Store.Ask` models a successful agent run only. If the agent or its response parser raises (backend/main.py:37-38), nothing is stored and the request fails; that path is not modelled.
- `HistoryView.HistoryChat` cannot hold a JSON null message, which pages/4_History.py:523-524 would pass on and the backend would render as "None". The columns are NOT NULL in backend/database.py, so the listing never returns one.
- After Next on a page that fills the listing exactly, the history page shows "No conversations found" without a pager, and nothing in the page resets the page number (`HistoryView.FullLastPageDeadEnd`). The model keeps this behaviour.
- `FacialEmotion.VideoCapture.Read` returns no frame for any position outside the stored frames, so a negative frame count (OpenCV can report -1) fails at the read. A real decoder may clamp such a seek and still decode a frame; that is not modelled.

=== FILE: base.dfy ===
/**
 * Shared vocabulary of the model: optional values, results with an error,
 * order-preserving filtering, SQL-style offset/limit windows and sums.
 */
module Base {

  datatype Option<+T> = None | Some(value: T) {
    /** The value, or `default` when there is none (Python's `x or default`). */
    function GetOr(default: T): T {
      match this
      case Some(v) => v
      case None => default
    }
  }

  datatype Result<+R, +E> = Ok(value: R) | Err(error: E)

  /** The elements of `s` that satisfy `p`, in their original order (a list comprehension with an `if`). */
  function Keep<T>(s: seq<T>, p: T -> bool): seq<T>
  {
    if s == [] then []
    else (if p(s[0]) then [s[0]] else []) + Keep(s[1..], p)
  }

  /** `r` can be obtained from `s` by deleting elements, without reordering. */
  ghost predicate SubsequenceOf<T>(r: seq<T>, s: seq<T>)
    decreases |s|
  {
    if r == [] then true
    else if s == [] then false
    else (r[0] == s[0] && SubsequenceOf(r[1..], s[1..])) || SubsequenceOf(r, s[1..])
  }

  /** `Keep` of a non-empty sequence: the head's contribution followed by `Keep` of the tail. */
  lemma KeepCons<T>(x: T, s: seq<T>, p: T -> bool)
    ensures Keep([x] + s, p) == (if p(x) then [x] else []) + Keep(s, p)
  {
    assert ([x] + s)[0] == x && ([x] + s)[1..] == s;
  }

  lemma {:induction false} KeepConcat<T>(a: seq<T>, b: seq<T>, p: T -> bool)
    ensures Keep(a + b, p) == Keep(a, p) + Keep(b, p)
    decreases |a|
  {
    if a == [] {
      assert a + b == b;
    } else {
      var x, rest := a[0], a[1..];
      assert a == [x] + rest;
      assert a + b == [x] + (rest + b);
      KeepConcat(rest, b, p);
      KeepCons(x, rest + b, p);
      KeepCons(x, rest, p);
    }
  }

  /** Filtering keeps exactly the satisfying elements, each as often as it occurs, in order. */
  lemma {:induction false} KeepSpec<T>(s: seq<T>, p: T -> bool)
    ensures |Keep(s, p)| <= |s|
    ensures forall x :: x in Keep(s, p) <==> x in s && p(x)
    ensures forall x :: multiset(Keep(s, p))[x] == if p(x) then multiset(s)[x] else 0
    ensures SubsequenceOf(Keep(s, p), s)
    decreases |s|
  {
    if s != [] {
      var x, rest := s[0], s[1..];
      assert s == [x] + rest;
      KeepSpec(rest, p);
      KeepCons(x, rest, p);
      var r := Keep(s, p);
      assert multiset(s) == multiset{x} + multiset(rest);
      if p(x) {
        assert r == [x] + Keep(rest, p);
        assert r[0] == x && r[1..] == Keep(rest, p);
        assert multiset(r) == multiset{x} + multiset(Keep(rest, p));
      } else {
        assert r == Keep(rest, p);
      }
    }
  }

  /** Filtering a filtered sequence again with the same test changes nothing. */
  lemma {:induction false} KeepIdempotent<T>(s: seq<T>, p: T -> bool)
    ensures Keep(Keep(s, p), p) == Keep(s, p)
    decreases |s|
  {
    if s != [] {
      KeepIdempotent(s[1..], p);
      var head := if p(s[0]) then [s[0]] else [];
      KeepConcat(head, Keep(s[1..], p), p);
      if p(s[0]) {
        assert [s[0]][1..] == [];
        assert Keep(head, p) == [s[0]] + Keep([], p);
      }
    }
  }

  /** Normalises an SQL OFFSET: SQLite treats a negative offset as zero. */
  function OffsetStart(len: nat, skip: int): (start: nat)
    ensures start <= len
    ensures skip <= 0 ==> start == 0
    ensures 0 <= skip <= len ==> start == skip
    ensures skip >= len ==> start == len
  {
    if skip <= 0 then 0 else if skip <= len then skip else len
  }

  /**
   * `OFFSET skip LIMIT limit` applied to an already ordered result: drop the
   * first `skip` rows and keep at most `limit` of the rest. SQLite reads a
   * negative limit as "no limit".
   */
  function Window<T>(s: seq<T>, skip: int, limit: int): (r: seq<T>)
    ensures limit >= 0 ==> |r| == if limit < |s| - OffsetStart(|s|, skip) then limit else |s| - OffsetStart(|s|, skip)
    ensures limit < 0 ==> r == s[OffsetStart(|s|, skip)..]
    ensures forall k :: 0 <= k < |r| ==> r[k] == s[OffsetStart(|s|, skip) + k]
  {
    var start := OffsetStart(|s|, skip);
    if limit < 0 || start + limit >= |s| then s[start..] else s[start..start + limit]
  }

  /** Two adjacent pages together are the page that spans both. */
  lemma WindowAdjacent<T>(s: seq<T>, skip: nat, n: nat, m: nat)
    ensures Window(s, skip, n) + Window(s, skip + n, m) == Window(s, skip, n + m)
  {
    var w := Window(s, skip, n + m);
    var u := Window(s, skip, n) + Window(s, skip + n, m);
    assert |u| == |w|;
    forall k | 0 <= k < |w| ensures u[k] == w[k] {
      if k < |Window(s, skip, n)| {
      } else {
        assert OffsetStart(|s|, skip + n) == OffsetStart(|s|, skip) + |Window(s, skip, n)|;
      }
    }
  }

  function Min(a: int, b: int): int { if a <= b then a else b }

  function Max(a: int, b: int): int { if a >= b then a else b }

  lemma AppendAssoc<T>(a: seq<T>, b: seq<T>, c: seq<T>)
    ensures (a + b) + c == a + (b + c)
  {
  }

  function Sum(s: seq<real>): real
  {
    if s == [] then 0.0 else s[0] + Sum(s[1..])
  }
}

=== FILE: chat_store.dfy ===
/**
 * The chat store behind backend/main.py: `/ask` appends exactly one record,
 * `/chats` lists the records newest first with offset and limit, and
 * `/chats/count` is the number of records. The table of backend/database.py
 * is a sequence of records held by a store object; the LLM agent is reduced
 * to the reply and the tool name it hands back.
 */
module ChatStore {
  import opened Base
  import opened StableOrder

  /** A row of the `chat_conversations` table. `timestamp` is UTC time in microseconds. */
  datatype ChatRecord = ChatRecord(
    id: nat,
    userMessage: string,
    assistantResponse: string,
    toolCalled: Option<string>,
    timestamp: int)

  /** What `/ask` returns: the agent's reply and tool name exactly as parsed, before normalisation. */
  datatype AskResponse = AskResponse(response: Option<string>, toolCalled: Option<string>)

  /**
   * The record `/ask` stores for a query, given what the agent returned: an
   * absent or empty reply is stored as "", and a tool name of "None" (or no
   * tool name at all) as a null tool.
   */
  function NewRecord(id: nat, query: string, reply: Option<string>, toolName: Option<string>, now: int): (r: ChatRecord)
    ensures r.id == id && r.userMessage == query && r.timestamp == now
    ensures r.assistantResponse == "" <==> reply == None || reply == Some("")
    ensures reply.Some? && reply.value != "" ==> r.assistantResponse == reply.value
    ensures r.toolCalled == None <==> toolName == None || toolName == Some("None")
    ensures r.toolCalled.Some? ==> r.toolCalled == toolName && r.toolCalled != Some("None")
  {
    ChatRecord(
      id,
      query,
      reply.GetOr(""),
      if toolName == Some("None") then None else toolName,
      now)
  }

  function TimeKey(c: ChatRecord): real { c.timestamp as real }

  /** Ids strictly increase along the table, as SQLite assigns rowids to appended rows. */
  ghost predicate IdsIncreasing(records: seq<ChatRecord>)
  {
    forall i, j :: 0 <= i < j < |records| ==> records[i].id < records[j].id
  }

  class Store {
    var records: seq<ChatRecord>
    var nextId: nat

    ghost predicate Valid()
      reads this
    {
      && IdsIncreasing(records)
      && (forall i :: 0 <= i < |records| ==> records[i].id < nextId)
      && nextId >= 1
    }

    /** A freshly created, empty table. */
    constructor()
      ensures Valid() && records == [] && nextId == 1
    {
      records := [];
      nextId := 1;
    }

    /**
     * `/ask`: stores exactly one record for the exchange (user message,
     * normalised reply and tool, the clock's `now`) and answers with the raw
     * reply and tool name.
     */
    method Ask(query: string, reply: Option<string>, toolName: Option<string>, now: int) returns (resp: AskResponse)
      requires Valid()
      modifies this
      ensures Valid()
      ensures records == old(records) + [NewRecord(old(nextId), query, reply, toolName, now)]
      ensures nextId == old(nextId) + 1
      ensures |records| == |old(records)| + 1
      ensures resp == AskResponse(reply, toolName)
    {
      var rec := NewRecord(nextId, query, reply, toolName, now);
      records := records + [rec];
      nextId := nextId + 1;
      resp := AskResponse(reply, toolName);
    }

    /**
     * `/chats?skip=..&limit=..`: the records ordered by timestamp, newest
     * first, after dropping `skip` of them, at most `limit` of them. SQL
     * leaves the order of equal timestamps open; here they keep insertion order.
     */
    function GetChats(skip: int, limit: int): (chats: seq<ChatRecord>)
      reads this
      ensures chats == Window(SortDesc(records, TimeKey), skip, limit)
      ensures SortedDesc(chats, TimeKey)
      ensures forall c :: c in chats ==> c in records
      ensures limit >= 0 ==> |chats| == Min(limit, |records| - OffsetStart(|records|, skip))
      ensures limit < 0 ==> |chats| == |records| - OffsetStart(|records|, skip)
      ensures skip <= 0 && limit < 0 ==> multiset(chats) == multiset(records)
    {
      var ordered := SortDesc(records, TimeKey);
      SortDescSpec(records, TimeKey);
      SameTiesPermutation(ordered, records, TimeKey);
      var chats := Window(ordered, skip, limit);
      assert forall c :: c in chats ==> c in multiset(ordered);
      assert skip <= 0 && limit < 0 ==> chats == ordered;
      chats
    }

    /** `/chats/count`: the number of stored records, which is what an unbounded listing returns. */
    function Count(): (n: nat)
      reads this
      ensures n == |GetChats(0, -1)|
      ensures n == 0 <==> records == []
    {
      |records|
    }
  }

  /** A record appended with a later timestamp than every other is the first one `/chats` returns. */
  lemma {:induction false} NewestListedFirst(records: seq<ChatRecord>)
    requires records != []
    requires forall i :: 0 <= i < |records| - 1 ==> records[i].timestamp < records[|records| - 1].timestamp
    ensures SortDesc(records, TimeKey)[0] == records[|records| - 1]
    ensures Window(SortDesc(records, TimeKey), 0, 1) == [records[|records| - 1]]
  {
    var s := SortDesc(records, TimeKey);
    SortDescSpec(records, TimeKey);
    SameTiesPermutation(s, records, TimeKey);
    var last := records[|records| - 1];
    assert last in multiset(records);
    assert last in s;
    var k :| 0 <= k < |s| && s[k] == last;
    assert s[0] in multiset(records);
    var m :| 0 <= m < |records| && records[m] == s[0];
    assert TimeKey(s[0]) >= TimeKey(s[k]);
    assert m == |records| - 1;
  }
}

=== FILE: facial_emotion.dfy ===
/**
 * The deterministic parts of backend/facial_emotion.py: choosing the largest
 * detected face, padding and clamping its box, cropping the image as numpy
 * slicing does, renaming and ranking the classifier's predictions, and
 * choosing the middle frame of a video. The face detector, the emotion
 * classifier, image decoding and JPEG encoding are uninterpreted functions.
 */
module FacialEmotion {
  import opened Base
  import opened StableOrder

  /** A detector's bounding box `[x, y, width, height]`; x and y may be negative at the image border. */
  datatype Box = Box(x: int, y: int, w: nat, h: nat)

  /** A crop rectangle after padding and clamping; its width or height may come out negative when the box lies beyond the image. */
  datatype Region = Region(x: int, y: int, w: int, h: int)

  /** A decoded RGB image: `rows` has `height` rows of `width` pixels each (numpy's shape[0] and shape[1]). */
  datatype Image<P> = Image(width: nat, rows: seq<seq<P>>)

  ghost predicate Rectangular<P>(img: Image<P>)
  {
    forall i :: 0 <= i < |img.rows| ==> |img.rows[i]| == img.width
  }

  datatype Error = ImportError(message: string) | ValueError(message: string)

  function Area(b: Box): nat
  {
    b.w * b.h
  }

  /**
   * Index of the box that Python's `max(faces, key=area)` returns among the
   * first `n` boxes: it scans left to right and replaces its candidate only
   * by a strictly larger one.
   */
  function LargestIndex(faces: seq<Box>, n: nat): (k: nat)
    requires 1 <= n <= |faces|
    ensures k < n
    ensures forall j :: 0 <= j < n ==> Area(faces[j]) <= Area(faces[k])
    ensures forall j :: 0 <= j < k ==> Area(faces[j]) < Area(faces[k])
  {
    if n == 1 then 0
    else
      var k := LargestIndex(faces, n - 1);
      if Area(faces[n - 1]) > Area(faces[k]) then n - 1 else k
  }

  /** The face that is cropped: none when nothing was detected, otherwise the first box of largest area. */
  function SelectFace(faces: seq<Box>): (r: Option<Box>)
    ensures r.None? <==> faces == []
    ensures r.Some? ==> forall j :: 0 <= j < |faces| ==> Area(faces[j]) <= Area(r.value)
    ensures r.Some? ==> exists k :: 0 <= k < |faces| && faces[k] == r.value
                                    && forall j :: 0 <= j < k ==> Area(faces[j]) < Area(r.value)
  {
    if faces == [] then None
    else
      var k := LargestIndex(faces, |faces|);
      assert faces[k] == faces[k];
      Some(faces[k])
  }

  /** `int(max(w, h) * 0.2)`: a fifth of the longer side, rounded down (exact for image-sized integers). */
  function Padding(b: Box): (p: nat)
    ensures 5 * p <= Max(b.w, b.h) < 5 * p + 5
  {
    Max(b.w, b.h) / 5
  }

  /** Grows the box by the padding on every side, then clamps it to an image of the given size. */
  function PadAndClamp(b: Box, width: nat, height: nat): (r: Region)
    ensures 0 <= r.x && 0 <= r.y
    ensures b.x >= 0 ==> r.x <= b.x
    ensures b.y >= 0 ==> r.y <= b.y
    ensures r.w <= b.w + 2 * Padding(b) && r.h <= b.h + 2 * Padding(b)
    ensures r.x + r.w <= width && r.y + r.h <= height
    ensures 0 <= r.w <==> b.x - Padding(b) <= width
    ensures 0 <= r.h <==> b.y - Padding(b) <= height
    // clamping the left or top edge does not take anything off the far side
    ensures b.x - Padding(b) < 0 && b.w + 2 * Padding(b) <= width ==> r.x == 0 && r.w == b.w + 2 * Padding(b)
    ensures b.y - Padding(b) < 0 && b.h + 2 * Padding(b) <= height ==> r.y == 0 && r.h == b.h + 2 * Padding(b)
    // a box that lies inside the image lies inside its padded region
    ensures 0 <= b.x && b.x + b.w <= width ==> r.x <= b.x && b.x + b.w <= r.x + r.w
    ensures 0 <= b.y && b.y + b.h <= height ==> r.y <= b.y && b.y + b.h <= r.y + r.h
  {
    var p := Padding(b);
    var x := Max(0, b.x - p);
    var y := Max(0, b.y - p);
    Region(x, y, Min(width - x, b.w + 2 * p), Min(height - y, b.h + 2 * p))
  }

  /** Python's normalisation of a slice bound: a negative bound counts from the end, and bounds are clamped to the length. */
  function SliceBound(i: int, len: nat): (r: nat)
    ensures r <= len
    ensures 0 <= i <= len ==> r == i
  {
    if i < 0 then Max(0, i + len) else Min(i, len)
  }

  /** `s[start:stop]`. */
  function PySlice<T>(s: seq<T>, start: int, stop: int): (r: seq<T>)
    ensures 0 <= start <= stop <= |s| ==> r == s[start..stop]
    ensures 0 <= start && 0 <= stop && (start >= |s| || stop <= start) ==> r == []
    ensures |r| <= |s| && forall i :: 0 <= i < |r| ==> r[i] in s
  {
    var lo, hi := SliceBound(start, |s|), SliceBound(stop, |s|);
    if hi <= lo then [] else s[lo..hi]
  }

  /** `image_array[y:y+h, x:x+w]`. */
  function Crop<P>(img: Image<P>, r: Region): (c: seq<seq<P>>)
    ensures |c| <= |img.rows|
    // a region that starts at or past the bottom edge, or has no height, crops to nothing
    ensures 0 <= r.y && 0 <= r.y + r.h && (r.y >= |img.rows| || r.h <= 0) ==> c == []
    // a region that starts at or past the right edge, or has no width, crops every row to nothing
    ensures 0 <= r.x && 0 <= r.x + r.w && (r.x >= img.width || r.w <= 0) && Rectangular(img) ==>
              forall i :: 0 <= i < |c| ==> c[i] == []
  {
    var rows := PySlice(img.rows, r.y, r.y + r.h);
    assert Rectangular(img) ==> forall i :: 0 <= i < |rows| ==> |rows[i]| == img.width;
    seq(|rows|, i requires 0 <= i < |rows| => PySlice(rows[i], r.x, r.x + r.w))
  }

  /** `_detect_and_crop_face`, given what the detector found: None when no face was detected. */
  function DetectAndCropFace<P>(img: Image<P>, faces: seq<Box>): (r: Option<seq<seq<P>>>)
    ensures r.None? <==> faces == []
  {
    match SelectFace(faces)
    case None => None
    case Some(b) => Some(Crop(img, PadAndClamp(b, img.width, |img.rows|)))
  }

  /** Cropping an in-bounds region gives its height and width and the image's pixels at the region's offset. */
  lemma CropWindow<P>(img: Image<P>, r: Region)
    requires Rectangular(img)
    requires 0 <= r.x && 0 <= r.y && 0 <= r.w && 0 <= r.h
    requires r.x + r.w <= img.width && r.y + r.h <= |img.rows|
    ensures |Crop(img, r)| == r.h
    ensures forall i :: 0 <= i < r.h ==> |Crop(img, r)[i]| == r.w
    ensures forall i, j :: 0 <= i < r.h && 0 <= j < r.w ==> Crop(img, r)[i][j] == img.rows[r.y + i][r.x + j]
  {
    var c := Crop(img, r);
    var rows := PySlice(img.rows, r.y, r.y + r.h);
    assert rows == img.rows[r.y..r.y + r.h];
    assert |c| == r.h;
    forall i | 0 <= i < r.h
      ensures |c[i]| == r.w && forall j :: 0 <= j < r.w ==> c[i][j] == img.rows[r.y + i][r.x + j]
    {
      var row := img.rows[r.y + i];
      assert rows[i] == row && |row| == img.width;
      assert c[i] == PySlice(row, r.x, r.x + r.w) == row[r.x..r.x + r.w];
    }
  }

  /**
   * The crop has the clamped region's size and shows the image's pixels at
   * the region's offset, and every pixel of a face box that lies inside the
   * image is in the crop.
   */
  lemma CropContainsFace<P>(img: Image<P>, faces: seq<Box>)
    requires Rectangular(img) && faces != []
    requires var b := SelectFace(faces).value;
             b.x - Padding(b) <= img.width && b.y - Padding(b) <= |img.rows|
    ensures var b := SelectFace(faces).value;
            var r := PadAndClamp(b, img.width, |img.rows|);
            var c := DetectAndCropFace(img, faces).value;
            && |c| == r.h
            && (forall i :: 0 <= i < r.h ==> |c[i]| == r.w)
            && (forall i, j :: 0 <= i < r.h && 0 <= j < r.w ==> c[i][j] == img.rows[r.y + i][r.x + j])
            && (0 <= b.x && b.x + b.w <= img.width && 0 <= b.y && b.y + b.h <= |img.rows| ==>
                  forall i, j :: b.y <= i < b.y + b.h && b.x <= j < b.x + b.w ==>
                    c[i - r.y][j - r.x] == img.rows[i][j])
  {
    var b := SelectFace(faces).value;
    var r := PadAndClamp(b, img.width, |img.rows|);
    var c := DetectAndCropFace(img, faces).value;
    assert c == Crop(img, r);
    CropWindow(img, r);
    if 0 <= b.x && b.x + b.w <= img.width && 0 <= b.y && b.y + b.h <= |img.rows| {
      assert r.y <= b.y && b.y + b.h <= r.y + r.h;
      assert r.x <= b.x && b.x + b.w <= r.x + r.w;
      forall i, j | b.y <= i < b.y + b.h && b.x <= j < b.x + b.w
        ensures c[i - r.y][j - r.x] == img.rows[i][j]
      {
        assert 0 <= i - r.y < r.h && 0 <= j - r.x < r.w;
        assert c[i - r.y][j - r.x] == img.rows[r.y + (i - r.y)][r.x + (j - r.x)];
      }
    }
  }

  /**
   * A face box that starts more than its padding past the bottom or right
   * edge gets a negative height or width, and the crop is empty.
   */
  lemma CropBeyondEdgeIsEmpty<P>(img: Image<P>, faces: seq<Box>)
    requires Rectangular(img) && faces != []
    ensures var b := SelectFace(faces).value;
            var c := DetectAndCropFace(img, faces).value;
            && (b.y - Padding(b) > |img.rows| ==> c == [])
            && (b.x - Padding(b) > img.width ==> forall i :: 0 <= i < |c| ==> c[i] == [])
  {
    var b := SelectFace(faces).value;
    var r := PadAndClamp(b, img.width, |img.rows|);
    assert DetectAndCropFace(img, faces).value == Crop(img, r);
    assert b.y - Padding(b) > |img.rows| ==> r.h < 0 && r.y + r.h == |img.rows|;
    assert b.x - Padding(b) > img.width ==> r.w < 0 && r.x + r.w == img.width;
  }

  /** One entry of the classifier's output, `{"label": ..., "score": ...}`. */
  datatype Prediction = Prediction(labelText: string, score: real)

  /** One entry of the returned list, `{"emotion": ..., "score": ...}`. */
  datatype Emotion = Emotion(emotion: string, score: real)

  function ScoreOf(e: Emotion): real { e.score }

  /** The list comprehension that renames `label` to `emotion`, entry by entry. */
  function Rename(preds: seq<Prediction>): (r: seq<Emotion>)
    ensures |r| == |preds|
    ensures forall i :: 0 <= i < |preds| ==> r[i].emotion == preds[i].labelText && r[i].score == preds[i].score
  {
    seq(|preds|, i requires 0 <= i < |preds| => Emotion(preds[i].labelText, preds[i].score))
  }

  /**
   * Renames the predictions and sorts them in place by score, highest first
   * (`emotion_list.sort(key=score, reverse=True)`, a stable sort).
   */
  method RankEmotions(preds: seq<Prediction>) returns (list: seq<Emotion>)
    ensures SortedDesc(list, ScoreOf)
    ensures SameTies(list, Rename(preds), ScoreOf)
    ensures multiset(list) == multiset(Rename(preds))
    ensures list == SortDesc(Rename(preds), ScoreOf)
    ensures list != [] ==> forall e :: e in list ==> e.score <= list[0].score
  {
    var renamed := Rename(preds);
    var a := new Emotion[|renamed|](i requires 0 <= i < |renamed| => renamed[i]);
    assert a[..] == renamed;
    SortDescInPlace(a, ScoreOf);
    list := a[..];
  }

  const Cv2Missing := "OpenCV (cv2) is required. Install with: pip install opencv-python"

  const VideoCv2Missing := "OpenCV (cv2) is required for video processing. Install with: pip install opencv-python"

  /**
   * `analyze_emotion_from_image_bytes`: decode, detect, crop, classify, rank.
   * Every failure after the OpenCV check is a ValueError naming its stage;
   * no face gives the empty list and the classifier is not consulted.
   */
  method AnalyzeEmotionFromImageBytes<P>(
    imageBytes: seq<bv8>,
    cv2Available: bool,
    decode: seq<bv8> -> Result<Image<P>, string>,
    detect: Image<P> -> Result<seq<Box>, string>,
    classify: seq<seq<P>> -> Result<seq<Prediction>, string>)
    returns (r: Result<seq<Emotion>, Error>)
    ensures !cv2Available ==> r == Err(ImportError(Cv2Missing))
    ensures cv2Available && decode(imageBytes).Err? ==>
              r == Err(ValueError("Failed to load image: " + decode(imageBytes).error))
    ensures cv2Available && decode(imageBytes).Ok? && detect(decode(imageBytes).value).Err? ==>
              r == Err(ValueError("Failed to detect face: " + detect(decode(imageBytes).value).error))
    ensures cv2Available && decode(imageBytes).Ok? && detect(decode(imageBytes).value) == Ok([]) ==>
              r == Ok([])
    ensures r.Ok? && r.value != [] ==>
              var img := decode(imageBytes).value;
              var faces := detect(img).value;
              var preds := classify(DetectAndCropFace(img, faces).value);
              && faces != []
              && preds.Ok?
              && r.value == SortDesc(Rename(preds.value), ScoreOf)
              && SortedDesc(r.value, ScoreOf)
              && multiset(r.value) == multiset(Rename(preds.value))
    ensures cv2Available && decode(imageBytes).Ok? && detect(decode(imageBytes).value).Ok? &&
            detect(decode(imageBytes).value).value != [] ==>
              var img := decode(imageBytes).value;
              var preds := classify(DetectAndCropFace(img, detect(img).value).value);
              && (preds.Err? ==> r == Err(ValueError("Failed to analyze emotions: " + preds.error)))
              && (preds.Ok? ==> r == Ok(SortDesc(Rename(preds.value), ScoreOf)))
  {
    if !cv2Available {
      return Err(ImportError(Cv2Missing));
    }
    var img;
    match decode(imageBytes) {
      case Err(e) => return Err(ValueError("Failed to load image: " + e));
      case Ok(i) => img := i;
    }
    var faces;
    match detect(img) {
      case Err(e) => return Err(ValueError("Failed to detect face: " + e));
      case Ok(f) => faces := f;
    }
    var face := DetectAndCropFace(img, faces);
    if face.None? {
      return Ok([]);
    }
    match classify(face.value) {
      case Err(e) => return Err(ValueError("Failed to analyze emotions: " + e));
      case Ok(preds) =>
        var list := RankEmotions(preds);
        return Ok(list);
    }
  }

  /** Index of the middle frame of a clip whose reported frame count is `total`: `total // 2`, or an error when it is 0. */
  function MiddleFrame(total: int): (r: Result<int, string>)
    ensures r.Err? <==> total == 0
    ensures r.Err? ==> r.error == "Video has no frames"
    ensures r.Ok? ==> 2 * r.value <= total < 2 * r.value + 2
    ensures total > 0 ==> r.Ok? && 0 <= r.value < total
  {
    if total == 0 then Err("Video has no frames") else Ok(total / 2)
  }

  /** An OpenCV capture over a video file: a cursor over its decoded frames. */
  class VideoCapture<F> {
    const isOpened: bool
    /** CAP_PROP_FRAME_COUNT as the container reports it; it need not match the frames that can be decoded. */
    const frameCount: int
    const frames: seq<F>
    var position: int
    var released: bool

    constructor(isOpened: bool, frameCount: int, frames: seq<F>)
      ensures this.isOpened == isOpened && this.frameCount == frameCount && this.frames == frames
      ensures position == 0 && !released
    {
      this.isOpened := isOpened;
      this.frameCount := frameCount;
      this.frames := frames;
      position := 0;
      released := false;
    }

    /** `cap.set(CAP_PROP_POS_FRAMES, pos)`. */
    method Seek(pos: int)
      modifies this
      ensures position == pos && released == old(released)
    {
      position := pos;
    }

    /** `cap.read()`: the frame at the cursor, which then advances; nothing past the end. */
    method Read() returns (frame: Option<F>)
      modifies this
      ensures released == old(released)
      ensures 0 <= old(position) < |frames| ==> frame == Some(frames[old(position)]) && position == old(position) + 1
      ensures !(0 <= old(position) < |frames|) ==> frame == None && position == old(position)
    {
      if 0 <= position < |frames| {
        frame := Some(frames[position]);
        position := position + 1;
      } else {
        frame := None;
      }
    }

    method Release()
      modifies this
      ensures released && position == old(position)
    {
      released := true;
    }
  }

  const FramePrefix := "Failed to extract frame from video: "

  /**
   * `extract_frame_from_video` on a capture opened over the written file:
   * seek to the middle frame, read it and encode it. The capture is released
   * only on the path that reaches the read.
   */
  method ExtractFrameFromVideo<F, J>(cv2Available: bool, cap: VideoCapture<F>, encode: F -> J)
    returns (r: Result<J, Error>)
    modifies cap
    ensures !cv2Available ==> r == Err(ImportError(VideoCv2Missing))
    ensures cv2Available && !cap.isOpened ==> r == Err(ValueError(FramePrefix + "Could not open video file"))
    ensures cv2Available && cap.isOpened && cap.frameCount == 0 ==>
              r == Err(ValueError(FramePrefix + "Video has no frames")) && cap.released == old(cap.released)
    ensures cv2Available && cap.isOpened && cap.frameCount != 0 ==>
              var k := cap.frameCount / 2;
              && cap.released
              && (0 <= k < |cap.frames| ==> r == Ok(encode(cap.frames[k])))
              && (!(0 <= k < |cap.frames|) ==> r == Err(ValueError(FramePrefix + "Could not read frame from video")))
    ensures r.Ok? ==> cv2Available && cap.isOpened && 0 < cap.frameCount && cap.released
    ensures !(cv2Available && cap.isOpened && cap.frameCount != 0) ==>
              cap.released == old(cap.released) && cap.position == old(cap.position)
  {
    if !cv2Available {
      return Err(ImportError(VideoCv2Missing));
    }
    if !cap.isOpened {
      return Err(ValueError(FramePrefix + "Could not open video file"));
    }
    match MiddleFrame(cap.frameCount) {
      case Err(e) => return Err(ValueError(FramePrefix + e));
      case Ok(middle) =>
        cap.Seek(middle);
        var frame := cap.Read();
        cap.Release();
        if frame.None? {
          return Err(ValueError(FramePrefix + "Could not read frame from video"));
        }
        return Ok(encode(frame.value));
    }
  }
}

=== FILE: history_view.dfy ===
/**
 * View logic of the history page, pages/4_History.py: the search box, the
 * sentiment badge, the sidebar filters turned into query parameters, the
 * pagination state kept in the session, the progress indicator, the trend
 * metric and the request the "Generate AI Summary" button sends. The chats
 * are the JSON objects the backend returned; Streamlit rendering and HTTP are
 * not part of this model.
 */
module HistoryView {
  import opened Base
  import opened Strings
  import Sentiment
  import Summary

  /**
   * A chat as the page receives it. `None` stands for a key the object does
   * not have (or, for `tool_called`, a JSON null).
   */
  datatype HistoryChat = HistoryChat(
    id: nat,
    userMessage: Option<string>,
    assistantResponse: Option<string>,
    toolCalled: Option<string>,
    timestamp: Option<string>,
    sentimentScore: Option<real>)

  // ---------------------------------------------------------------- search

  /** The lowercased search term occurs in the lowercased user message or reply (a missing one is ""). */
  predicate Matches(c: HistoryChat, needle: string)
  {
    Contains(Lower(c.userMessage.GetOr("")), needle) || Contains(Lower(c.assistantResponse.GetOr("")), needle)
  }

  function Hits(chats: seq<HistoryChat>, needle: string): seq<HistoryChat>
  {
    Keep(chats, c => Matches(c, needle))
  }

  /**
   * The search box: an empty term keeps every chat; otherwise the chats whose
   * message or reply contains the term, ignoring case, in their original order.
   */
  function SearchChats(chats: seq<HistoryChat>, term: string): (r: seq<HistoryChat>)
    ensures term == "" ==> r == chats
    ensures forall c :: c in r <==> c in chats && (term == "" || Matches(c, Lower(term)))
    ensures forall c :: multiset(r)[c] == if term == "" || Matches(c, Lower(term)) then multiset(chats)[c] else 0
    ensures SubsequenceOf(r, chats)
  {
    if term == "" then
      assert SubsequenceOf(chats, chats) by { SubsequenceRefl(chats); }
      chats
    else
      KeepSpec(chats, c => Matches(c, Lower(term)));
      Hits(chats, Lower(term))
  }

  lemma {:induction false} SubsequenceRefl<T>(s: seq<T>)
    ensures SubsequenceOf(s, s)
    decreases |s|
  {
    if s != [] {
      SubsequenceRefl(s[1..]);
    }
  }

  /** The search does not see case: a term and its lowercase form find the same chats. */
  lemma SearchIgnoresCase(chats: seq<HistoryChat>, term: string)
    ensures SearchChats(chats, Lower(term)) == SearchChats(chats, term)
  {
    LowerIdempotent(term);
  }

  /** Searching the search result again with the same term changes nothing. */
  lemma SearchIdempotent(chats: seq<HistoryChat>, term: string)
    ensures SearchChats(SearchChats(chats, term), term) == SearchChats(chats, term)
  {
    if term != "" {
      KeepIdempotent(chats, c => Matches(c, Lower(term)));
    }
  }

  // ----------------------------------------------------------------- badge

  datatype Colour = Gray | Green | Red

  datatype Badge = Badge(sentiment: Sentiment.Label, colour: Colour)

  /**
   * The badge of a chat: a missing score and a score of exactly 0 are falsy
   * and stay Neutral/gray; otherwise the thresholds are strict.
   */
  function SentimentBadge(score: Option<real>): (b: Badge)
    ensures b.sentiment == Sentiment.Positive <==> score.Some? && score.value > 0.05
    ensures b.sentiment == Sentiment.Negative <==> score.Some? && score.value < -0.05
    ensures b.sentiment == Sentiment.Neutral <==> score.None? || -0.05 <= score.value <= 0.05
    ensures b.colour == Gray <==> b.sentiment == Sentiment.Neutral
    ensures b.colour == Green <==> b.sentiment == Sentiment.Positive
  {
    if score.Some? && score.value != 0.0 then
      if score.value > 0.05 then Badge(Sentiment.Positive, Green)
      else if score.value < -0.05 then Badge(Sentiment.Negative, Red)
      else Badge(Sentiment.Neutral, Gray)
    else Badge(Sentiment.Neutral, Gray)
  }

  /**
   * The page's badge and the backend's label agree on every score except the
   * two boundary values, where the backend says Positive/Negative and the
   * page says Neutral.
   */
  lemma BadgeAgreesWithBackend(x: real)
    ensures SentimentBadge(Some(x)).sentiment == Sentiment.GetSentimentLabel(x) <==> x != 0.05 && x != -0.05
  {
  }

  // --------------------------------------------------------------- filters

  /** The `tool_called` value for the type filter; "All" (or an unknown option) adds none. */
  function ToolFilter(filterType: string): (t: Option<string>)
    ensures t.None? <==> filterType !in {"Chat", "Speech Emotion", "Facial Emotion"}
    ensures filterType == "Chat" ==> t == Some("none")
    ensures filterType == "Speech Emotion" ==> t == Some("speech_emotion")
    ensures filterType == "Facial Emotion" ==> t == Some("facial_emotion")
  {
    if filterType == "Chat" then Some("none")
    else if filterType == "Speech Emotion" then Some("speech_emotion")
    else if filterType == "Facial Emotion" then Some("facial_emotion")
    else None
  }

  const SortKeys: map<string, string> := map[
    "Newest First" := "newest",
    "Oldest First" := "oldest",
    "Longest" := "longest",
    "Shortest" := "shortest",
    "Most Positive" := "most_positive",
    "Most Negative" := "most_negative"]

  /** `sort_map.get(sort_by, "newest")`: always one of the six backend keys, "newest" when unknown. */
  function SortKey(sortBy: string): (k: string)
    ensures k in SortKeys.Values
    ensures sortBy !in SortKeys ==> k == "newest"
    ensures sortBy in SortKeys ==> k == SortKeys[sortBy]
  {
    assert SortKeys["Newest First"] == "newest";
    if sortBy in SortKeys then SortKeys[sortBy] else "newest"
  }

  /** Date parameters of the CSV export: each date is sent only when one was picked. */
  function ExportParams(startDate: Option<string>, endDate: Option<string>): (p: map<string, string>)
    ensures p.Keys <= {"start_date", "end_date"}
    ensures "start_date" in p <==> startDate.Some?
    ensures "end_date" in p <==> endDate.Some?
    ensures startDate.Some? ==> p["start_date"] == startDate.value
    ensures endDate.Some? ==> p["end_date"] == endDate.value
  {
    var p := if startDate.Some? then map["start_date" := startDate.value] else map[];
    if endDate.Some? then p["end_date" := endDate.value] else p
  }

  /**
   * The `filters` dictionary of the conversations tab, built up entry by
   * entry: the picked dates (the same ones the export sends), the type filter
   * and the sort key.
   */
  method BuildFilters(startDate: Option<string>, endDate: Option<string>, filterType: string, sortBy: string)
    returns (filters: map<string, string>)
    ensures filters.Keys <= {"start_date", "end_date", "tool_called", "sort_by"}
    ensures forall k :: k in ExportParams(startDate, endDate) <==> k in filters && k in {"start_date", "end_date"}
    ensures forall k :: k in ExportParams(startDate, endDate) ==> filters[k] == ExportParams(startDate, endDate)[k]
    ensures "tool_called" in filters <==> ToolFilter(filterType).Some?
    ensures "tool_called" in filters ==> filters["tool_called"] == ToolFilter(filterType).value
    ensures "sort_by" in filters && filters["sort_by"] == SortKey(sortBy)
  {
    filters := map[];
    if startDate.Some? {
      filters := filters["start_date" := startDate.value];
    }
    if endDate.Some? {
      filters := filters["end_date" := endDate.value];
    }
    if filterType != "All" {
      if filterType == "Chat" {
        filters := filters["tool_called" := "none"];
      } else if filterType == "Speech Emotion" {
        filters := filters["tool_called" := "speech_emotion"];
      } else if filterType == "Facial Emotion" {
        filters := filters["tool_called" := "facial_emotion"];
      }
    }
    filters := filters["sort_by" := SortKey(sortBy)];
  }

  /**
   * Query parameters of the listing request: `skip` and `limit` as decimal
   * text, overridden by the filters (`params.update(filters)`).
   */
  function RequestParams(skip: nat, limit: nat, filters: map<string, string>): (p: map<string, string>)
    ensures p.Keys == {"skip", "limit"} + filters.Keys
    ensures forall k :: k in filters ==> p[k] == filters[k]
    ensures "skip" !in filters ==> p["skip"] == NatToString(skip) && DecimalValue(p["skip"]) == skip
    ensures "limit" !in filters ==> p["limit"] == NatToString(limit) && DecimalValue(p["limit"]) == limit
  {
    map["skip" := NatToString(skip), "limit" := NatToString(limit)] + filters
  }

  // ------------------------------------------------------------ pagination

  const ItemsPerPageChoices: set<nat> := {5, 10, 20, 50}

  /**
   * Whether the pager is drawn for what the fetch of the current page
   * returned: a failed fetch (None) shows an error and an empty page shows
   * "No conversations found", both without Previous and Next buttons.
   */
  predicate PagerShown(fetched: Option<nat>)
  {
    fetched.Some? && fetched.value > 0
  }

  /** The session state behind the pager: the current page and the page size picked in the sidebar. */
  class PageState {
    var pageNumber: nat
    var itemsPerPage: nat

    ghost predicate Valid()
      reads this
    {
      itemsPerPage in ItemsPerPageChoices
    }

    /** A new session starts on the first page with 10 items per page. */
    constructor()
      ensures Valid() && pageNumber == 0 && itemsPerPage == 10
    {
      pageNumber := 0;
      itemsPerPage := 10;
    }

    /** The offset of the current page: whole pages before it, and nothing else. */
    function Skip(): (s: nat)
      reads this
      ensures s == PageOffset(pageNumber, itemsPerPage)
      ensures itemsPerPage > 0 ==> s / itemsPerPage == pageNumber && s % itemsPerPage == 0
      ensures pageNumber == 0 ==> s == 0
    {
      if itemsPerPage > 0 then WholePages(pageNumber, itemsPerPage); PageOffset(pageNumber, itemsPerPage)
      else PageOffset(pageNumber, 0)
    }

    /** Previous is disabled on the first page, the one whose offset is 0. */
    predicate PreviousDisabled(): (d: bool)
      reads this
      ensures itemsPerPage > 0 ==> (d <==> Skip() == 0)
    {
      pageNumber == 0
    }

    /** Next is disabled when the backend returned fewer chats than a full page. */
    predicate NextDisabled(returned: nat): (d: bool)
      reads this
      ensures d <==> returned < itemsPerPage
      // Next can only be enabled on a page that has chats, so one that draws the pager
      ensures itemsPerPage > 0 && !d ==> PagerShown(Some(returned))
    {
      returned < itemsPerPage
    }

    /**
     * On the page fetched at the current offset, Next is enabled exactly when
     * the listing still holds a full page from that offset on.
     */
    lemma NextEnabledIffFullPage<T>(listing: seq<T>)
      ensures !NextDisabled(|Window(listing, Skip(), itemsPerPage)|) <==> |listing| >= Skip() + itemsPerPage
    {
    }

    /** The page number shown to the user, counted from 1. */
    function DisplayedPage(): (p: nat)
      reads this
      ensures p >= 1 && p - 1 == pageNumber
    {
      pageNumber + 1
    }

    /** The Previous button, which can be pressed only when the pager is drawn and the button is enabled. */
    method PressPrevious(fetched: Option<nat>)
      requires Valid() && PagerShown(fetched) && !PreviousDisabled()
      modifies this
      ensures Valid()
      ensures pageNumber == old(pageNumber) - 1 && itemsPerPage == old(itemsPerPage)
    {
      pageNumber := pageNumber - 1;
    }

    /** The Next button, which can be pressed only when the pager is drawn and the button is enabled. */
    method PressNext(fetched: Option<nat>)
      requires Valid() && PagerShown(fetched) && !NextDisabled(fetched.value)
      modifies this
      ensures Valid()
      ensures pageNumber == old(pageNumber) + 1 && itemsPerPage == old(itemsPerPage)
    {
      pageNumber := pageNumber + 1;
    }

    /** Picking a page size in the sidebar keeps the page number. */
    method SelectItemsPerPage(n: nat)
      requires n in ItemsPerPageChoices
      modifies this
      ensures Valid()
      ensures itemsPerPage == n && pageNumber == old(pageNumber)
    {
      itemsPerPage := n;
    }
  }

  /** An offset of `pages` whole pages of `size` lies at the start of page `pages`. */
  lemma WholePages(pages: nat, size: nat)
    requires size > 0
    ensures PageOffset(pages, size) / size == pages && PageOffset(pages, size) % size == 0
  {
    var n := PageOffset(pages, size);
    var q := n / size;
    var r := n % size;
    assert n == q * size + r;
    assert (pages - q) * size == r by {
      assert pages * size - q * size == (pages - q) * size;
    }
    NoMultipleBelow(pages - q, size, r);
  }

  lemma NoMultipleBelow(x: int, size: nat, r: int)
    requires size > 0 && 0 <= r < size && x * size == r
    ensures x == 0
  {
    if x >= 1 {
      assert false;
    } else if x <= -1 {
      assert false;
    }
  }

  /** The offset of page `page` (counted from 0) when each page holds `size` chats. */
  function PageOffset(page: nat, size: nat): nat
  {
    page * size
  }

  lemma NextPageOffset(page: nat, size: nat)
    ensures PageOffset(page + 1, size) == PageOffset(page, size) + size
  {
  }

  /** The chats pages 0 .. count-1 show, one after the other, when each is an offset/limit window. */
  function Pages<T>(listing: seq<T>, size: nat, count: nat): seq<T>
  {
    if count == 0 then [] else Pages(listing, size, count - 1) + Window(listing, PageOffset(count - 1, size), size)
  }

  /** Paging through the listing shows every chat of the first `count` pages once, in listing order. */
  lemma {:induction false} PagesTile<T>(listing: seq<T>, size: nat, count: nat)
    ensures Pages(listing, size, count) == Window(listing, 0, PageOffset(count, size))
  {
    if count == 0 {
      assert |Window(listing, 0, 0)| == 0;
    } else {
      NextPageOffset(count - 1, size);
      PagesTile(listing, size, count - 1);
      WindowAdjacent(listing, 0, PageOffset(count - 1, size), size);
    }
  }

  /** When a page comes back short (so Next is disabled) the next page would be empty. */
  lemma ShortPageIsLast<T>(listing: seq<T>, page: nat, size: nat)
    requires |Window(listing, PageOffset(page, size), size)| < size
    ensures Window(listing, PageOffset(page + 1, size), size) == []
  {
    NextPageOffset(page, size);
  }

  /**
   * A listing that fills its last page exactly: Next is enabled there, but
   * the page after it comes back empty, so no pager is drawn and neither
   * button can be pressed again.
   */
  lemma FullLastPageDeadEnd<T>(listing: seq<T>, page: nat, size: nat)
    requires size > 0 && |listing| == PageOffset(page + 1, size)
    ensures |Window(listing, PageOffset(page, size), size)| == size
    ensures Window(listing, PageOffset(page + 1, size), size) == []
    ensures !PagerShown(Some(|Window(listing, PageOffset(page + 1, size), size)|))
  {
    NextPageOffset(page, size);
  }

  // ----------------------------------------------------- progress and trend

  datatype Progress = PositiveProgress | AttentionNeeded | Stable

  /**
   * The progress indicator over the daily averages of the last 14 days:
   * nothing below two points; the first seven points against the next
   * seven, both summed and divided by 7; with fewer than 14 points the older
   * average is the recent one.
   */
  function ProgressIndicator(points: seq<real>): (r: Option<Progress>)
    ensures r.None? <==> |points| < 2
    ensures 2 <= |points| < 14 ==> r == Some(Stable)
    ensures |points| >= 14 ==> (r == Some(PositiveProgress) <==> Sum(points[..7]) > Sum(points[7..14]) + 0.7)
    ensures |points| >= 14 ==> (r == Some(AttentionNeeded) <==> Sum(points[..7]) < Sum(points[7..14]) - 0.7)
  {
    if |points| < 2 then None
    else
      var recent := Sum(points[..Min(7, |points|)]) / 7.0;
      var older := if |points| >= 14 then Sum(points[7..14]) / 7.0 else recent;
      Some(
        if recent > older + 0.1 then PositiveProgress
        else if recent < older - 0.1 then AttentionNeeded
        else Stable)
  }

  /** Swapping the two weeks turns positive progress into a warning and back. */
  lemma ProgressSwapWeeks(points: seq<real>)
    requires |points| >= 14
    ensures var swapped := points[7..14] + points[..7] + points[14..];
            ProgressIndicator(points) == Some(PositiveProgress) <==> ProgressIndicator(swapped) == Some(AttentionNeeded)
  {
    var swapped := points[7..14] + points[..7] + points[14..];
    assert swapped[..7] == points[7..14];
    assert swapped[7..14] == points[..7];
  }

  datatype Trend = Improving | Declining

  /** The trend metric: Improving exactly when the last day's average beats the first's; ties decline. */
  function TrendMetric(averages: seq<real>): (t: Trend)
    requires |averages| >= 1
    ensures t == Improving <==> averages[|averages| - 1] > averages[0]
  {
    if averages[|averages| - 1] > averages[0] then Improving else Declining
  }

  function Reversed<T>(s: seq<T>): (r: seq<T>)
    ensures |r| == |s|
    ensures forall i :: 0 <= i < |s| ==> r[i] == s[|s| - 1 - i]
  {
    seq(|s|, i requires 0 <= i < |s| => s[|s| - 1 - i])
  }

  /** Read backwards, an improving series declines; a flat one declines both ways. */
  lemma TrendReversed(averages: seq<real>)
    requires |averages| >= 1
    ensures TrendMetric(averages) == Improving ==> TrendMetric(Reversed(averages)) == Declining
    ensures averages[0] == averages[|averages| - 1] ==> TrendMetric(Reversed(averages)) == Declining
  {
  }

  // ------------------------------------------------------- summary request

  function AsField(v: Option<string>): Summary.Field
  {
    match v
    case Some(s) => Summary.Text(s)
    case None => Summary.Null
  }

  /**
   * The chats the summary button sends to `/summarize`: messages default to
   * "", a missing tool or timestamp is sent as null.
   */
  function SummaryRequest(chats: seq<HistoryChat>): (req: seq<Summary.ChatDict>)
    ensures |req| == |chats|
    ensures forall i :: 0 <= i < |chats| ==>
      && Summary.Render(req[i].userMessage, "") == chats[i].userMessage.GetOr("")
      && Summary.Render(req[i].assistantResponse, "") == chats[i].assistantResponse.GetOr("")
      && (Summary.ToolLine(req[i].toolCalled) != "" <==> chats[i].toolCalled.Some? && chats[i].toolCalled.value != "")
      && (req[i].timestamp.Text? <==> chats[i].timestamp.Some?)
      // present values are forwarded as they are, absent ones as null
      && (chats[i].timestamp.Some? ==> req[i].timestamp == Summary.Text(chats[i].timestamp.value))
      && (chats[i].timestamp.None? ==> req[i].timestamp == Summary.Null)
      && (chats[i].toolCalled.Some? ==> req[i].toolCalled == Summary.Text(chats[i].toolCalled.value))
      && (chats[i].toolCalled.None? ==> req[i].toolCalled == Summary.Null)
      && (chats[i].toolCalled.Some? && chats[i].toolCalled.value != "" ==>
            Summary.ToolLine(req[i].toolCalled) == "Tool Used: " + chats[i].toolCalled.value + "\n")
  {
    seq(|chats|, i requires 0 <= i < |chats| =>
      Summary.ChatDict(
        AsField(chats[i].timestamp),
        Summary.Text(chats[i].userMessage.GetOr("")),
        Summary.Text(chats[i].assistantResponse.GetOr("")),
        AsField(chats[i].toolCalled)))
  }
}

=== FILE: sentiment.dfy ===
/**
 * Sentiment policy of backend/sentiment_analysis.py: the neutral default
 * for blank text or a failing analyzer, the +-0.05 labelling thresholds and
 * the conversation length. The VADER analyzer itself is an uninterpreted
 * function from text to scores.
 */
module Sentiment {
  import opened Base
  import Strings

  /** VADER's polarity scores: compound in [-1, 1] and the positive/neutral/negative proportions. */
  datatype Scores = Scores(compound: real, pos: real, neu: real, neg: real)

  /** The analyzer as this module sees it: the library may be missing, and scoring may raise. */
  datatype Analyzer =
    | Missing
    | Loaded(polarityScores: string -> Result<Scores, string>)

  const NeutralScores := Scores(0.0, 0.0, 1.0, 0.0)

  /** `analyze_sentiment`: total, it never raises. */
  function AnalyzeSentiment(text: string, analyzer: Analyzer): (r: Scores)
    ensures Strings.IsBlank(text) ==> r == NeutralScores
    ensures (!Strings.IsBlank(text) && analyzer.Loaded? && analyzer.polarityScores(text).Ok?)
            ==> r == analyzer.polarityScores(text).value
    ensures r != NeutralScores ==> analyzer.Loaded? && analyzer.polarityScores(text) == Ok(r)
  {
    if Strings.IsBlank(text) then NeutralScores
    else match analyzer
      case Missing => NeutralScores
      case Loaded(polarity) =>
        match polarity(text)
        case Ok(scores) => scores
        case Err(_) => NeutralScores
  }

  /** Blank text is answered without consulting the analyzer. */
  lemma BlankIgnoresAnalyzer(text: string, a: Analyzer, b: Analyzer)
    requires Strings.IsBlank(text)
    ensures AnalyzeSentiment(text, a) == AnalyzeSentiment(text, b) == NeutralScores
  {
  }

  /** A failing or missing analyzer gives the same neutral scores as blank text. */
  lemma FailureIsNeutral(text: string, a: Analyzer)
    requires a.Missing? || (a.Loaded? && a.polarityScores(text).Err?)
    ensures AnalyzeSentiment(text, a) == NeutralScores
  {
  }

  datatype Label = Negative | Neutral | Positive

  function Rank(l: Label): int
  {
    match l
    case Negative => 0
    case Neutral => 1
    case Positive => 2
  }

  function LabelName(l: Label): string
  {
    match l
    case Negative => "Negative"
    case Neutral => "Neutral"
    case Positive => "Positive"
  }

  /** `get_sentiment_label`: the boundary values 0.05 and -0.05 are Positive and Negative. */
  function GetSentimentLabel(compound: real): (l: Label)
    ensures l == Positive <==> compound >= 0.05
    ensures l == Negative <==> compound <= -0.05
    ensures l == Neutral <==> -0.05 < compound < 0.05
  {
    if compound >= 0.05 then Positive
    else if compound <= -0.05 then Negative
    else Neutral
  }

  /** A larger compound score never gets a lower label. */
  lemma LabelMonotone(a: real, b: real)
    requires a <= b
    ensures Rank(GetSentimentLabel(a)) <= Rank(GetSentimentLabel(b))
  {
  }

  /** The neutral default, and so every blank text and every analyzer failure, labels as Neutral. */
  lemma NeutralDefaultLabel(text: string, a: Analyzer)
    requires Strings.IsBlank(text) || a.Missing? || (a.Loaded? && a.polarityScores(text).Err?)
    ensures GetSentimentLabel(AnalyzeSentiment(text, a).compound) == Neutral
  {
  }

  /** `calculate_conversation_length`: a missing (or empty) part counts as zero characters. */
  function ConversationLength(userMessage: Option<string>, assistantResponse: Option<string>): (n: nat)
    ensures n >= |userMessage.GetOr("")| && n >= |assistantResponse.GetOr("")|
    ensures n == |userMessage.GetOr("") + assistantResponse.GetOr("")|
    ensures userMessage == None && assistantResponse == None ==> n == 0
  {
    |userMessage.GetOr("")| + |assistantResponse.GetOr("")|
  }
}

=== FILE: stable_order.dfy ===
/**
 * Stable ordering by a numeric key, largest key first: what Python's
 * `list.sort(key=..., reverse=True)` promises, and the order a query
 * `ORDER BY key DESC` is given in this model.
 */
module StableOrder {
  import opened Base

  ghost predicate SortedDesc<T>(s: seq<T>, key: T -> real)
  {
    forall i, j :: 0 <= i < j < |s| ==> key(s[i]) >= key(s[j])
  }

  /** The elements of `s` whose key is `v`, in their order in `s`. */
  function KeyClass<T>(s: seq<T>, key: T -> real, v: real): seq<T>
  {
    Keep(s, x => key(x) == v)
  }

  /** `s` and `t` hold the same elements, and elements with equal keys appear in the same relative order. */
  ghost predicate SameTies<T>(s: seq<T>, t: seq<T>, key: T -> real)
  {
    forall v :: KeyClass(s, key, v) == KeyClass(t, key, v)
  }

  /** Inserts `x`, which came before every element of `t`, in front of the first element whose key is not larger. */
  function Insert<T>(x: T, t: seq<T>, key: T -> real): (r: seq<T>)
    ensures |r| == |t| + 1
    ensures multiset(r) == multiset{x} + multiset(t)
    ensures r[0] == x || (t != [] && r[0] == t[0])
  {
    if t == [] || key(x) >= key(t[0]) then [x] + t
    else
      assert t == [t[0]] + t[1..];
      [t[0]] + Insert(x, t[1..], key)
  }

  /** Reference definition of the stable descending sort (insertion sort). */
  function SortDesc<T>(s: seq<T>, key: T -> real): (r: seq<T>)
    ensures |r| == |s|
    ensures multiset(r) == multiset(s)
  {
    if s == [] then []
    else
      assert s == [s[0]] + s[1..];
      Insert(s[0], SortDesc(s[1..], key), key)
  }

  lemma KeyClassConcat<T>(a: seq<T>, b: seq<T>, key: T -> real, v: real)
    ensures KeyClass(a + b, key, v) == KeyClass(a, key, v) + KeyClass(b, key, v)
  {
    KeepConcat(a, b, x => key(x) == v);
  }

  lemma KeyClassSingle<T>(x: T, key: T -> real, v: real)
    ensures KeyClass([x], key, v) == if key(x) == v then [x] else []
  {
    var p := y => key(y) == v;
    assert [x][1..] == [];
    assert Keep([x], p) == (if p(x) then [x] else []) + Keep([], p);
  }

  lemma SameTiesTrans<T>(s: seq<T>, t: seq<T>, u: seq<T>, key: T -> real)
    requires SameTies(s, t, key) && SameTies(t, u, key)
    ensures SameTies(s, u, key)
  {
  }

  lemma {:induction false} InsertSorted<T>(x: T, t: seq<T>, key: T -> real)
    requires SortedDesc(t, key)
    ensures SortedDesc(Insert(x, t, key), key)
    decreases |t|
  {
    if t != [] && key(x) < key(t[0]) {
      InsertSorted(x, t[1..], key);
      var r := Insert(x, t[1..], key);
      assert forall j :: 0 <= j < |r| ==> key(t[0]) >= key(r[j]) by {
        forall j | 0 <= j < |r| ensures key(t[0]) >= key(r[j]) {
          if j > 0 {
            assert key(t[0]) >= key(r[0]);
          }
        }
      }
    }
  }

  lemma KeyClassCons<T>(x: T, s: seq<T>, key: T -> real, v: real)
    ensures KeyClass([x] + s, key, v) == (if key(x) == v then [x] else []) + KeyClass(s, key, v)
  {
    KeepCons(x, s, y => key(y) == v);
  }

  lemma {:induction false} InsertTies<T>(x: T, t: seq<T>, key: T -> real)
    ensures SameTies(Insert(x, t, key), [x] + t, key)
    decreases |t|
  {
    if t != [] && key(x) < key(t[0]) {
      var y, rest := t[0], t[1..];
      assert t == [y] + rest;
      assert [x] + t == [x] + ([y] + rest);
      InsertTies(x, rest, key);
      forall v ensures KeyClass(Insert(x, t, key), key, v) == KeyClass([x] + t, key, v) {
        var hx := if key(x) == v then [x] else [];
        var hy := if key(y) == v then [y] else [];
        KeyClassCons(y, Insert(x, rest, key), key, v);
        KeyClassCons(x, rest, key, v);
        KeyClassCons(x, t, key, v);
        KeyClassCons(y, rest, key, v);
        assert hx == [] || hy == [];
        AppendAssoc(hy, hx, KeyClass(rest, key, v));
        AppendAssoc(hx, hy, KeyClass(rest, key, v));
      }
    }
  }

  /** The reference sort is sorted and stable. */
  lemma {:induction false} SortDescSpec<T>(s: seq<T>, key: T -> real)
    ensures SortedDesc(SortDesc(s, key), key)
    ensures SameTies(SortDesc(s, key), s, key)
    ensures |SortDesc(s, key)| == |s|
    decreases |s|
  {
    if s != [] {
      var rest := SortDesc(s[1..], key);
      SortDescSpec(s[1..], key);
      InsertSorted(s[0], rest, key);
      InsertTies(s[0], rest, key);
      forall v ensures KeyClass([s[0]] + rest, key, v) == KeyClass(s, key, v) {
        KeyClassConcat([s[0]], rest, key, v);
        assert s == [s[0]] + s[1..];
        KeyClassConcat([s[0]], s[1..], key, v);
      }
    }
  }

  lemma {:induction false} KeyClassCount<T>(s: seq<T>, key: T -> real, x: T)
    ensures multiset(KeyClass(s, key, key(x)))[x] == multiset(s)[x]
  {
    KeepSpec(s, y => key(y) == key(x));
  }

  /** Equal ties imply a permutation. */
  lemma SameTiesPermutation<T>(s: seq<T>, t: seq<T>, key: T -> real)
    requires SameTies(s, t, key)
    ensures multiset(s) == multiset(t)
  {
    forall x ensures multiset(s)[x] == multiset(t)[x] {
      KeyClassCount(s, key, x);
      KeyClassCount(t, key, x);
    }
  }

  lemma KeyClassMember<T>(s: seq<T>, key: T -> real, v: real, x: T)
    ensures x in KeyClass(s, key, v) <==> x in s && key(x) == v
  {
    KeepSpec(s, y => key(y) == v);
  }

  /** Two sorted arrangements with equal ties start with the same element. */
  lemma HeadsAgree<T>(s: seq<T>, t: seq<T>, key: T -> real)
    requires s != [] && t != []
    requires SortedDesc(s, key) && SortedDesc(t, key) && SameTies(s, t, key)
    ensures s[0] == t[0]
  {
    var a, b := s[0], t[0];
    KeyClassMember(s, key, key(a), a);
    KeyClassMember(t, key, key(a), a);
    KeyClassMember(t, key, key(b), b);
    KeyClassMember(s, key, key(b), b);
    var k := key(a);
    assert key(b) == k by {
      assert a in t;
      assert b in s;
    }
    assert s == [a] + s[1..] && t == [b] + t[1..];
    KeyClassCons(a, s[1..], key, k);
    KeyClassCons(b, t[1..], key, k);
    assert KeyClass(s, key, k)[0] == a;
    assert KeyClass(t, key, k)[0] == b;
  }

  /** Dropping an equal first element keeps the ties equal. */
  lemma TailTies<T>(s: seq<T>, t: seq<T>, key: T -> real)
    requires s != [] && t != [] && s[0] == t[0] && SameTies(s, t, key)
    ensures SameTies(s[1..], t[1..], key)
  {
    var a := s[0];
    assert s == [a] + s[1..] && t == [a] + t[1..];
    forall v ensures KeyClass(s[1..], key, v) == KeyClass(t[1..], key, v) {
      KeyClassCons(a, s[1..], key, v);
      KeyClassCons(a, t[1..], key, v);
      assert KeyClass(s, key, v) == KeyClass(t, key, v);
      var head := if key(a) == v then [a] else [];
      assert head + KeyClass(s[1..], key, v) == head + KeyClass(t[1..], key, v);
      assert KeyClass(s[1..], key, v) == (head + KeyClass(s[1..], key, v))[|head|..];
      assert KeyClass(t[1..], key, v) == (head + KeyClass(t[1..], key, v))[|head|..];
    }
  }

  /** A sorted, stable arrangement is unique: sortedness and equal ties determine the sequence. */
  lemma {:induction false} SortedTiesUnique<T>(s: seq<T>, t: seq<T>, key: T -> real)
    requires SortedDesc(s, key) && SortedDesc(t, key) && SameTies(s, t, key)
    ensures s == t
    decreases |s|
  {
    if s == [] && t == [] {
    } else if s == [] || t == [] {
      var w := if s == [] then t else s;
      KeyClassMember(s, key, key(w[0]), w[0]);
      KeyClassMember(t, key, key(w[0]), w[0]);
      assert false;
    } else {
      HeadsAgree(s, t, key);
      TailTies(s, t, key);
      SortedTiesUnique(s[1..], t[1..], key);
      assert s == [s[0]] + s[1..] && t == [t[0]] + t[1..];
    }
  }

  /** Any sorted, stable rearrangement of `s` is the reference sort of `s`. */
  lemma IsSortDesc<T>(r: seq<T>, s: seq<T>, key: T -> real)
    requires SortedDesc(r, key) && SameTies(r, s, key)
    ensures r == SortDesc(s, key)
    ensures multiset(r) == multiset(s)
  {
    SortDescSpec(s, key);
    SameTiesTrans(r, s, SortDesc(s, key), key);
    SortedTiesUnique(r, SortDesc(s, key), key);
    SameTiesPermutation(r, s, key);
  }

  lemma SwapTies<T>(s: seq<T>, j: int, key: T -> real)
    requires 0 < j < |s| && key(s[j - 1]) != key(s[j])
    ensures SameTies(s[j - 1 := s[j]][j := s[j - 1]], s, key)
  {
    var t := s[j - 1 := s[j]][j := s[j - 1]];
    var pre, post := s[..j - 1], s[j + 1..];
    assert s == pre + ([s[j - 1]] + [s[j]]) + post;
    assert t == pre + ([s[j]] + [s[j - 1]]) + post;
    forall v ensures KeyClass(t, key, v) == KeyClass(s, key, v) {
      KeyClassConcat(pre + ([s[j - 1]] + [s[j]]), post, key, v);
      KeyClassConcat(pre, [s[j - 1]] + [s[j]], key, v);
      KeyClassConcat([s[j - 1]], [s[j]], key, v);
      KeyClassConcat(pre + ([s[j]] + [s[j - 1]]), post, key, v);
      KeyClassConcat(pre, [s[j]] + [s[j - 1]], key, v);
      KeyClassConcat([s[j]], [s[j - 1]], key, v);
      KeyClassSingle(s[j], key, v);
      KeyClassSingle(s[j - 1], key, v);
    }
  }

  /**
   * In-place stable sort, largest key first (insertion sort with adjacent
   * swaps; only strictly smaller keys are moved past, which keeps ties in order).
   */
  method SortDescInPlace<T>(a: array<T>, key: T -> real)
    modifies a
    ensures SortedDesc(a[..], key)
    ensures SameTies(a[..], old(a[..]), key)
    ensures a[..] == SortDesc(old(a[..]), key)
    ensures multiset(a[..]) == multiset(old(a[..]))
  {
    for i := 0 to a.Length
      invariant SortedDesc(a[..i], key)
      invariant SameTies(a[..], old(a[..]), key)
    {
      ghost var before := a[..];
      MoveIntoPlace(a, i, key);
      SameTiesTrans(a[..], before, old(a[..]), key);
    }
    assert a[..a.Length] == a[..];
    IsSortDesc(a[..], old(a[..]), key);
  }

  /**
   * One pass of the insertion sort: with `a[..i]` sorted, moves `a[i]` left
   * past every strictly smaller key, so that `a[..i + 1]` is sorted.
   */
  method MoveIntoPlace<T>(a: array<T>, i: nat, key: T -> real)
    requires i < a.Length
    requires SortedDesc(a[..i], key)
    modifies a
    ensures SortedDesc(a[..i + 1], key)
    ensures SameTies(a[..], old(a[..]), key)
    ensures a[i + 1..] == old(a[i + 1..])
  {
    var j := i;
    while j > 0 && key(a[j - 1]) < key(a[j])
      invariant 0 <= j <= i
      invariant forall p, q :: 0 <= p < q <= i && p != j && q != j ==> key(a[p]) >= key(a[q])
      invariant forall q :: j < q <= i ==> key(a[j]) > key(a[q])
      invariant SameTies(a[..], old(a[..]), key)
      invariant a[i + 1..] == old(a[i + 1..])
    {
      ghost var before := a[..];
      a[j - 1], a[j] := a[j], a[j - 1];
      assert a[..] == before[j - 1 := before[j]][j := before[j - 1]];
      SwapTies(before, j, key);
      SameTiesTrans(a[..], before, old(a[..]), key);
      j := j - 1;
    }
  }
}

=== FILE: strings.dfy ===
/**
 * The few Python string operations the core relies on: `str.strip()` to
 * test for blank text, `str.lower()`, the substring test `needle in hay`,
 * `str(n)` for a non-negative integer and `s.replace("Z", "+00:00")`.
 */
module Strings {
  import opened Base

  /** Characters Python's `str.isspace()` accepts, which `str.strip()` removes. */
  predicate IsPythonSpace(c: char): (b: bool)
    // in ASCII: the space, tab, newline, vertical tab, form feed, carriage return and the four separators 0x1c-0x1f
    ensures c as int < 128 ==> (b <==> c == ' ' || '\t' <= c <= '\r' || '\U{1c}' <= c <= '\U{1f}')
    ensures '0' <= c <= '9' || 'A' <= c <= 'Z' || 'a' <= c <= 'z' ==> !b
    ensures c == '\U{a0}' || c == '\U{3000}' ==> b
  {
    c == ' ' || ('\t' <= c <= '\r') || ('\U{1c}' <= c <= '\U{1f}') || c == '\U{85}' || c == '\U{a0}'
    || c == '\U{1680}' || ('\U{2000}' <= c <= '\U{200a}') || c == '\U{2028}' || c == '\U{2029}'
    || c == '\U{202f}' || c == '\U{205f}' || c == '\U{3000}'
  }

  predicate NotSpace(c: char) { !IsPythonSpace(c) }

  /** `not text or not text.strip()`: empty, or nothing left once the whitespace is removed. */
  predicate IsBlank(text: string): (b: bool)
    ensures text == [] ==> b
    ensures b <==> Keep(text, NotSpace) == []
  {
    BlankIffNothingKept(text);
    forall i :: 0 <= i < |text| ==> IsPythonSpace(text[i])
  }

  lemma BlankIffNothingKept(text: string)
    ensures (forall i :: 0 <= i < |text| ==> IsPythonSpace(text[i])) <==> Keep(text, NotSpace) == []
  {
    KeepSpec(text, NotSpace);
    var kept := Keep(text, NotSpace);
    if kept != [] {
      assert kept[0] in kept;
      var i :| 0 <= i < |text| && text[i] == kept[0];
      assert !IsPythonSpace(text[i]);
    } else {
      forall i | 0 <= i < |text| ensures IsPythonSpace(text[i]) {
        assert text[i] in text;
      }
    }
  }

  function LowerChar(c: char): char
  {
    if 'A' <= c <= 'Z' then (c as int + 32) as char else c
  }

  function Lower(s: string): (r: string)
    ensures |r| == |s|
    ensures forall i :: 0 <= i < |s| ==> r[i] == LowerChar(s[i])
  {
    if s == [] then [] else [LowerChar(s[0])] + Lower(s[1..])
  }

  /** Lowering twice is lowering once. */
  lemma LowerIdempotent(s: string)
    ensures Lower(Lower(s)) == Lower(s)
  {
    assert forall i :: 0 <= i < |s| ==> LowerChar(LowerChar(s[i])) == LowerChar(s[i]);
  }

  ghost predicate OccursAt(hay: string, needle: string, i: int)
  {
    0 <= i && i + |needle| <= |hay| && hay[i..i + |needle|] == needle
  }

  /** Python's `needle in hay` on strings. */
  function Contains(hay: string, needle: string): (r: bool)
    ensures r <==> exists i :: OccursAt(hay, needle, i)
    decreases |hay|
  {
    if |needle| > |hay| then false
    else if hay[..|needle|] == needle then (assert OccursAt(hay, needle, 0); true)
    else if hay == [] then false
    else
      var rest := Contains(hay[1..], needle);
      assert rest ==> exists i :: OccursAt(hay, needle, i) by {
        if rest {
          var k :| OccursAt(hay[1..], needle, k);
          assert hay[k + 1..k + 1 + |needle|] == hay[1..][k..k + |needle|];
          assert OccursAt(hay, needle, k + 1);
        }
      }
      assert (exists i :: OccursAt(hay, needle, i)) ==> rest by {
        if exists i :: OccursAt(hay, needle, i) {
          var k :| OccursAt(hay, needle, k);
          assert k != 0;
          assert hay[1..][k - 1..k - 1 + |needle|] == hay[k..k + |needle|];
          assert OccursAt(hay[1..], needle, k - 1);
        }
      }
      rest
  }

  function DigitChar(d: nat): char
    requires d < 10
  {
    ('0' as int + d) as char
  }

  function DigitValue(c: char): nat
  {
    if '0' <= c <= '9' then c as int - '0' as int else 0
  }

  /** The number a string of decimal digits denotes. */
  function DecimalValue(s: string): nat
  {
    if s == [] then 0 else 10 * DecimalValue(s[..|s| - 1]) + DigitValue(s[|s| - 1])
  }

  /** Appending a digit multiplies the value by ten and adds the digit. */
  lemma DecimalSnoc(s: string, c: char)
    ensures DecimalValue(s + [c]) == 10 * DecimalValue(s) + DigitValue(c)
  {
    assert (s + [c])[..|s|] == s;
  }

  /** `str(n)`: the decimal digits of `n`, without leading zeros, which read back as `n`. */
  function NatToString(n: nat): (s: string)
    ensures |s| >= 1
    ensures forall i :: 0 <= i < |s| ==> '0' <= s[i] <= '9'
    ensures s[0] == '0' ==> n == 0
    ensures DecimalValue(s) == n
  {
    if n < 10 then [DigitChar(n)]
    else
      var p, d := NatToString(n / 10), DigitChar(n % 10);
      DecimalSnoc(p, d);
      p + [d]
  }

  /** `s.replace("Z", "+00:00")`. */
  function ReplaceZ(s: string): (r: string)
    ensures 'Z' !in r
    ensures 'Z' !in s ==> r == s
    ensures |r| == |s| + 5 * multiset(s)['Z']
  {
    if s == [] then []
    else
      assert s == [s[0]] + s[1..];
      (if s[0] == 'Z' then "+00:00" else [s[0]]) + ReplaceZ(s[1..])
  }

  /** The replacement works character by character: every "Z" becomes "+00:00" and every other character stays. */
  lemma {:induction false} ReplaceZConcat(a: string, b: string)
    ensures ReplaceZ(a + b) == ReplaceZ(a) + ReplaceZ(b)
    decreases |a|
  {
    if a == [] {
      assert a + b == b;
    } else {
      assert (a + b)[0] == a[0] && (a + b)[1..] == a[1..] + b;
      ReplaceZConcat(a[1..], b);
      AppendAssoc(if a[0] == 'Z' then "+00:00" else [a[0]], ReplaceZ(a[1..]), ReplaceZ(b));
    }
  }

  lemma ReplaceZSingle(c: char)
    ensures ReplaceZ([c]) == if c == 'Z' then "+00:00" else [c]
  {
    assert [c][1..] == [];
  }
}

=== FILE: summary.dfy ===
/**
 * Prompt assembly of `/summarize` in backend/main.py: a fixed header, one
 * text block per chat for at most the first 20 chats, truncation to 8000
 * characters, the fixed prompt around it, and the reply chosen from what
 * the agent returns. Chats arrive as JSON objects; the timestamp formatter
 * (`datetime.fromisoformat` then `strftime`) and the agent are uninterpreted.
 */
module Summary {
  import opened Base
  import opened Strings

  /** A value read with `chat.get(key, ...)`: the key may be absent, null or a string. */
  datatype Field = Absent | Null | Text(s: string)

  datatype ChatDict = ChatDict(timestamp: Field, userMessage: Field, assistantResponse: Field, toolCalled: Field)

  /** What the agent run produced: a parsed reply (possibly none) or an exception's message. */
  datatype AgentOutcome = Replied(reply: Option<string>) | Raised(message: string)

  const NoConversations := "No conversations available to summarize."
  const Header := "Here are all the past conversations:\n\n"
  const UnknownTime := "Unknown time"
  const BlockEnd := "\n---\n\n"
  const MaxChats := 20
  const MaxChars := 8000
  const TruncationMarker := "\n\n[... truncated for length ...]"
  const Unavailable := "Unable to generate summary at this time. Please try again."
  /** The instructions placed before the conversation text, line by line. */
  const PromptTask := "Please provide a comprehensive, to-the-point and precise (Maximum 100 words) summary of the following mental health conversations. \n"
  const PromptThemes := "Analyze the patterns, key themes, emotional states, concerns raised, and overall progress. \n"
  const PromptFormat := "Provide insights in a structured format covering:\n"
  const PromptTopics := "1. Overall emotional journey and patterns\n2. Main concerns and topics discussed\n3. Tools or resources utilized\n"
  const PromptInsights := "4. Progress indicators (if any)\n5. Key insights and recommendations\n\n"
  const PromptIntro := PromptTask + PromptThemes + PromptFormat + PromptTopics + PromptInsights + "Conversations:\n"
  const PromptOutro := "\n\nPlease provide a detailed, empathetic summary that helps understand the user's mental health journey."

  /** `f"{chat.get(key, default)}"`: an absent key gives the default, a JSON null renders as "None". */
  function Render(f: Field, default: string): (r: string)
    ensures f.Text? ==> r == f.s
    ensures f.Absent? ==> r == default
    ensures f.Null? ==> r == "None"
  {
    match f
    case Absent => default
    case Null => "None"
    case Text(s) => s
  }

  /** The time shown for a chat: a missing, null, empty or unparseable timestamp is "Unknown time". */
  function FormatTime(ts: Field, isoToDisplay: string -> Option<string>): (t: string)
    ensures !(ts.Text? && ts.s != "") ==> t == UnknownTime
    ensures ts.Text? && ts.s != "" && isoToDisplay(ReplaceZ(ts.s)).None? ==> t == UnknownTime
    ensures ts.Text? && ts.s != "" && isoToDisplay(ReplaceZ(ts.s)).Some? ==> t == isoToDisplay(ReplaceZ(ts.s)).value
  {
    if ts.Text? && ts.s != "" then
      match isoToDisplay(ReplaceZ(ts.s))
      case Some(t) => t
      case None => UnknownTime
    else UnknownTime
  }

  /** The "Tool Used" line, present exactly when the tool field is a non-empty string. */
  function ToolLine(f: Field): (line: string)
    ensures line != "" <==> f.Text? && f.s != ""
  {
    if f.Text? && f.s != "" then "Tool Used: " + f.s + "\n" else ""
  }

  /** The text block of the chat at 1-based position `idx`. */
  function Block(idx: nat, chat: ChatDict, isoToDisplay: string -> Option<string>): (b: string)
    // every block opens with "Conversation " and closes with the separator line
    ensures |b| > 13 + |BlockEnd|
    ensures b[..13] == "Conversation " && b[|b| - |BlockEnd|..] == BlockEnd
    // and holds the chat's details in between
    ensures b[13..|b| - |BlockEnd|] == BlockDetails(idx, chat, isoToDisplay)
  {
    var details := BlockDetails(idx, chat, isoToDisplay);
    Framed("Conversation ", details, BlockEnd);
    "Conversation " + details + BlockEnd
  }

  /** What a block shows between its opening word and its separator: number, time, messages and tool line. */
  function BlockDetails(idx: nat, chat: ChatDict, isoToDisplay: string -> Option<string>): (d: string)
    // it opens with the chat's number and closes with the tool line (empty when no tool was used)
    ensures |d| >= |NatToString(idx)| + 2 + |ToolLine(chat.toolCalled)|
    ensures d[..|NatToString(idx)| + 2] == NatToString(idx) + " ("
    ensures d[|d| - |ToolLine(chat.toolCalled)|..] == ToolLine(chat.toolCalled)
    // in between: the formatted time, then the user's message and the reply on their own lines
    ensures d[|NatToString(idx)| + 2..|d| - |ToolLine(chat.toolCalled)|]
              == FormatTime(chat.timestamp, isoToDisplay) + "):\nUser: " + Render(chat.userMessage, "")
                 + "\nAssistant: " + Render(chat.assistantResponse, "") + "\n"
  {
    var opening := NatToString(idx) + " (";
    var messages := FormatTime(chat.timestamp, isoToDisplay) + "):\nUser: " + Render(chat.userMessage, "")
      + "\nAssistant: " + Render(chat.assistantResponse, "") + "\n";
    Framed(opening, messages, ToolLine(chat.toolCalled));
    opening + messages + ToolLine(chat.toolCalled)
  }

  /** `a + m + e` starts with `a`, has `m` in the middle and ends with `e`. */
  lemma Framed(a: string, m: string, e: string)
    ensures |a + m + e| == |a| + |m| + |e|
    ensures (a + m + e)[..|a|] == a && (a + m + e)[|a|..|a| + |m|] == m && (a + m + e)[|a| + |m|..] == e
  {
  }

  /** The parts concatenated in order. */
  function Joined(parts: seq<string>): string
  {
    if parts == [] then "" else Joined(parts[..|parts| - 1]) + parts[|parts| - 1]
  }

  /** The blocks of `chats`, numbered from 1, in order. */
  function Rendered(chats: seq<ChatDict>, isoToDisplay: string -> Option<string>): (blocks: seq<string>)
    ensures |blocks| == |chats|
    ensures forall i :: 0 <= i < |chats| ==> blocks[i] == Block(i + 1, chats[i], isoToDisplay)
  {
    var block := (n: nat, chat: ChatDict) => Block(n, chat, isoToDisplay);
    var blocks := Numbered(chats, block);
    assert forall i :: 0 <= i < |chats| ==> blocks[i] == block(i + 1, chats[i]);
    blocks
  }

  /** `[f(n, x) for n, x in enumerate(xs, 1)]`. */
  function Numbered<A, B>(xs: seq<A>, f: (nat, A) -> B): (ys: seq<B>)
    ensures |ys| == |xs|
    ensures forall i :: 0 <= i < |xs| ==> ys[i] == f(i + 1, xs[i])
  {
    seq(|xs|, i requires 0 <= i < |xs| => f(i + 1, xs[i]))
  }

  /** `request.chats[:20] if len(request.chats) > 20 else request.chats`. */
  function FirstChats(chats: seq<ChatDict>): (r: seq<ChatDict>)
    ensures |r| <= MaxChats
    ensures |chats| <= MaxChats ==> r == chats
    ensures r == chats[..|r|]
  {
    if |chats| > MaxChats then chats[..MaxChats] else chats
  }

  /** Reference definition of the conversation text before truncation. */
  function ConversationText(chats: seq<ChatDict>, isoToDisplay: string -> Option<string>): string
  {
    Header + Joined(Rendered(FirstChats(chats), isoToDisplay))
  }

  /** The loop of `summarize_chats` that grows `conversation_text` chat by chat. */
  method BuildConversationText(chats: seq<ChatDict>, isoToDisplay: string -> Option<string>) returns (text: string)
    ensures text == ConversationText(chats, isoToDisplay)
  {
    text := Header;
    var toProcess := if |chats| > MaxChats then chats[..MaxChats] else chats;
    ghost var blocks := Rendered(toProcess, isoToDisplay);
    for i := 0 to |toProcess|
      invariant text == Header + Joined(blocks[..i])
    {
      var block := Block(i + 1, toProcess[i], isoToDisplay);
      JoinedSnoc(blocks, i);
      AppendAssoc(Header, Joined(blocks[..i]), block);
      text := text + block;
    }
    assert blocks[..|toProcess|] == blocks;
  }

  lemma JoinedSnoc(parts: seq<string>, i: nat)
    requires i < |parts|
    ensures Joined(parts[..i + 1]) == Joined(parts[..i]) + parts[i]
  {
    assert parts[..i + 1][..i] == parts[..i];
  }

  lemma {:induction false} JoinedPrefix(parts: seq<string>, k: nat)
    requires k <= |parts|
    ensures |Joined(parts[..k])| <= |Joined(parts)|
    ensures Joined(parts)[..|Joined(parts[..k])|] == Joined(parts[..k])
    decreases |parts| - k
  {
    if k < |parts| {
      var n := |parts|;
      JoinedPrefix(parts[..n - 1], k);
      assert parts[..n - 1][..k] == parts[..k];
    } else {
      assert parts[..k] == parts;
    }
  }

  lemma FirstChatsPrefix(chats: seq<ChatDict>, k: nat)
    requires k <= |chats|
    ensures FirstChats(chats[..k]) == FirstChats(chats)[..if k < MaxChats then k else MaxChats]
  {
  }

  lemma RenderedPrefix(chats: seq<ChatDict>, m: nat, isoToDisplay: string -> Option<string>)
    requires m <= |chats|
    ensures Rendered(chats[..m], isoToDisplay) == Rendered(chats, isoToDisplay)[..m]
  {
  }

  lemma PrefixAppend(p: string, a: string, b: string)
    requires a <= b
    ensures p + a <= p + b
  {
    assert (p + b)[..|p + a|] == p + a;
  }

  /** Among the first 20 chats, chat i (0-based) appends block i+1 to the text of the chats before it. */
  lemma {:induction false} ChatAppendsBlock(chats: seq<ChatDict>, i: nat, isoToDisplay: string -> Option<string>)
    requires i < |chats| && i < MaxChats
    ensures ConversationText(chats[..i + 1], isoToDisplay)
            == ConversationText(chats[..i], isoToDisplay) + Block(i + 1, chats[i], isoToDisplay)
  {
    var upTo := chats[..i + 1];
    assert FirstChats(upTo) == upTo && FirstChats(chats[..i]) == chats[..i];
    assert upTo[..i] == chats[..i];
    var blocks := Rendered(upTo, isoToDisplay);
    RenderedPrefix(upTo, i, isoToDisplay);
    JoinedSnoc(blocks, i);
    assert blocks[..i + 1] == blocks;
    AppendAssoc(Header, Joined(blocks[..i]), blocks[i]);
  }

  /** The text built from the first k chats is a prefix of the text built from all of them. */
  lemma {:induction false} ConversationPrefix(chats: seq<ChatDict>, k: nat, isoToDisplay: string -> Option<string>)
    requires k <= |chats|
    ensures ConversationText(chats[..k], isoToDisplay) <= ConversationText(chats, isoToDisplay)
  {
    var first := FirstChats(chats);
    var m := if k < MaxChats then k else MaxChats;
    FirstChatsPrefix(chats, k);
    RenderedPrefix(first, m, isoToDisplay);
    var all := Rendered(first, isoToDisplay);
    JoinedPrefix(all, m);
    PrefixAppend(Header, Joined(all[..m]), Joined(all));
  }

  /** Chats after the 20th never reach the prompt. */
  lemma OnlyFirstTwenty(chats: seq<ChatDict>, isoToDisplay: string -> Option<string>)
    requires |chats| > MaxChats
    ensures ConversationText(chats, isoToDisplay) == ConversationText(chats[..MaxChats], isoToDisplay)
  {
  }

  /** Text longer than 8000 characters keeps its first 8000 and gets the marker; shorter text is unchanged. */
  function Truncate(text: string): (r: string)
    ensures |text| <= MaxChars ==> r == text
    ensures |text| > MaxChars ==> |r| == MaxChars + |TruncationMarker|
    ensures |text| > MaxChars ==> r[..MaxChars] == text[..MaxChars] && r[MaxChars..] == TruncationMarker
    ensures |r| <= MaxChars + |TruncationMarker|
  {
    if |text| > MaxChars then text[..MaxChars] + TruncationMarker else text
  }

  /** Truncating an already truncated text changes nothing. */
  lemma TruncateIdempotent(text: string)
    ensures Truncate(Truncate(text)) == Truncate(text)
  {
    if |text| > MaxChars {
      var t := Truncate(text);
      assert t[..MaxChars] == text[..MaxChars];
      assert t[..MaxChars] + TruncationMarker == t;
    }
  }

  /** The agent's prompt: the fixed instructions, the conversation text unchanged, and the closing request. */
  function Prompt(conversationText: string): (p: string)
    ensures |p| == |PromptIntro| + |conversationText| + |PromptOutro|
    ensures p[..|PromptIntro|] == PromptIntro
    ensures p[|PromptIntro|..|PromptIntro| + |conversationText|] == conversationText
    ensures p[|PromptIntro| + |conversationText|..] == PromptOutro
  {
    Framed(PromptIntro, conversationText, PromptOutro);
    PromptIntro + conversationText + PromptOutro
  }

  /** The summary returned for what the agent produced. */
  function SummaryFor(outcome: AgentOutcome): (summary: string)
    ensures outcome.Replied? && outcome.reply.Some? && outcome.reply.value != "" ==> summary == outcome.reply.value
    ensures outcome.Replied? && (outcome.reply.None? || outcome.reply.value == "") ==> summary == Unavailable
    ensures outcome.Raised? ==> summary == "Error generating summary: " + outcome.message + ". Please check the backend logs for details."
  {
    match outcome
    case Replied(Some(s)) => if s != "" then s else Unavailable
    case Replied(None) => Unavailable
    case Raised(m) => "Error generating summary: " + m + ". Please check the backend logs for details."
  }

  /**
   * `/summarize`: the fixed message for no chats (the agent is not asked);
   * otherwise the agent's answer to the prompt built from the truncated
   * conversation text.
   */
  method Summarize(chats: seq<ChatDict>, isoToDisplay: string -> Option<string>, agent: string -> AgentOutcome)
    returns (summary: string)
    ensures chats == [] ==> summary == NoConversations
    ensures chats != [] ==> summary == SummaryFor(agent(Prompt(Truncate(ConversationText(chats, isoToDisplay)))))
  {
    if |chats| == 0 {
      return NoConversations;
    }
    var text := BuildConversationText(chats, isoToDisplay);
    if |text| > MaxChars {
      text := text[..MaxChars] + TruncationMarker;
    }
    summary := SummaryFor(agent(Prompt(text)));
  }

  /** The agent never sees more than the fixed prompt around 8000 characters and the marker. */
  lemma PromptBounded(chats: seq<ChatDict>, isoToDisplay: string -> Option<string>)
    ensures |Prompt(Truncate(ConversationText(chats, isoToDisplay)))|
              <= |PromptIntro| + MaxChars + |TruncationMarker| + |PromptOutro|
  {
  }
}
